=== FILE: README.md ===
# Trip Navigator: a verified model of the booking back end and the trip planner

Trip Navigator is a travel-booking web application. A set of PHP endpoints sits
over a small relational database (`users`, `travel_plans`, `reservations`,
`itineraries`), and a React front end lets a visitor filter destinations, plan
a trip day by day and book it. This project models, in Dafny, the parts of the
application that hold its rules:

- **The endpoints** (`api/trips/book.php`, `api/user/reservations.php`,
  `api/user/cancel-reservation.php`, `api/auth/register.php`,
  `api/auth/login.php`, `api/user/update-profile.php`,
  `api/trips/destinations.php`). The four tables and the two auto-increment
  counters behind `lastInsertId` are held in memory. The four
  endpoints that write (`Booking.Book`, `Cancellation.Cancel`,
  `Accounts.Register`, `Accounts.UpdateProfile`) are each specified as a pure
  function of the tables before the call, returning the tables after the call
  and the JSON envelope. The two that only read (`ReservationQueries.Listing`,
  `Accounts.Login`) are pure functions of the tables returning only the
  envelope. The destination list has no function of its own: it is specified
  by the contract of `ReservationStore.Store.ListDestinations`.
- **The database object** `ReservationStore.Store`. It is a class whose
  fields are the tables, with one method per endpoint. Each method follows
  its endpoint's statements: the transaction and the `foreach` insert loop of
  the booking, the nested fetch loops of the listing, and the `UPDATE` and
  `INSERT` statements.
  - `Book`, `Cancel`, `Register` and `UpdateProfile` are proved to produce
    exactly the tables and the response of their specification functions.
  - `ListReservations` is proved to return `ReservationQueries.Listing` of
    the tables.
  - `ListDestinations` has no specification function: its contract states
    the response directly, one projected entry per travel plan, in table
    order.
  - The two listing methods change nothing. The four others keep the table
    invariant `Schema.Valid`.

  `Schema.Valid` requires the following:
  - user and reservation ids are positive, below their counters and distinct;
  - travel plan ids are distinct (plans have no counter, since no endpoint
    inserts them);
  - emails are distinct;
  - every itinerary row's reservation id is below the reservation counter, so
    no later reservation can inherit earlier rows.
- **The destinations page** (`src/pages/Destinations.tsx`). This covers the
  filter predicate, the de-duplicated and sorted location list, and the
  filter reset.
- **The trip planner** (`src/pages/PlanTrip.tsx`). This covers:
  - the per-destination activity tables;
  - the itinerary loop;
  - the total price computed with `parseInt`;
  - the page state its handlers update, as a class `PlanTrip.PlanTripPage`.
- **The itinerary helper** of `src/services/api.ts` (`generateItinerary` and
  `getRandomActivity`).

Some library code is given to the model as parameters:

- `Math.random` is an injected oracle `random: nat -> real`. Draw `k` of a run
  is `random(k)`, and every draw lies in `[0, 1)`.
- `rand(100000, 999999)` is the parameter `draw`.
- `password_hash` and `password_verify`, and the sanitiser
  `htmlspecialchars(strip_tags(..))`, are the functions of a `Builtins` value.
  The only property assumed of them is `Schema.Sound`: a password verifies
  against its own hash.
- An exception thrown by one of the booking inserts is the parameter `fault`.
  It names the statement that throws.

PDO is configured with `ERRMODE_EXCEPTION` (`api/config/database.php`), so a
failing `execute` throws instead of returning `false`. As a result, the
"Unable to register user", "Unable to update profile" and "Unable to cancel
reservation" branches cannot be reached. Only `book.php` catches the
exception, and there it rolls back.

Modules: `Wrappers` (Option), `Text` (digits, decimal strings, ASCII lower
case, substring search, string order), `Sorting` (a stable insertion sort
standing in for SQL `ORDER BY` and `Array.prototype.sort`), `Schema`,
`Catalog`, `Booking`, `ReservationQueries`, `Cancellation`, `Accounts`,
`ReservationStore`, `DestinationFilter`, `Random`, `JsParse` (JavaScript's
`parseInt`), `PlanTrip`, `ApiService`.

## Model

| member | source | states |
|---|---|---|
| `Schema.PlanById` | api/user/reservations.php:22 | The plan found has the requested id and is in the table; when none is found, no plan has that id. |
| `Schema.ItineraryRowsOf` | api/user/reservations.php:35-38 | The inner query selects exactly the itinerary rows whose reservation id is the requested one. |
| `Schema.ItineraryRowsOfCounts` | api/user/reservations.php:35-38 | Each selected row occurs as often as in the table, and no other row occurs, so the select drops no duplicate row. |
| `Booking.Book` | api/trips/book.php:12-85 | Succeeds exactly for a POST whose five required fields are non-empty in PHP's sense and whose inserts do not throw. A non-POST gives "Invalid request method" and a missing field gives "Incomplete data". An insert that throws gives "Error: " followed by the exception's message. Every failure, including a rolled-back exception, leaves all tables as they were. On success the message is "Reservation successful", the tables gain exactly the new reservation row (status 'confirmed') and one itinerary row per submitted day, the reservation counter advances by one, nothing else changes, the returned id is the new row's id, the returned booking reference is "TP-" followed by the drawn number, and the invariant is kept. |
| `Booking.BookingKeepsValid` | api/trips/book.php:31-60 | Inserting the reservation under the fresh id and its day rows keeps the table invariant. |
| `Booking.SlotsArePadded` | api/trips/book.php:56-58 | A stored day holds the first three activities of the submitted day, with `''` for each missing one; activities beyond the third are dropped. |
| `Booking.DayRowsShape` | api/trips/book.php:52-60 | The loop inserts one row per submitted day, all under the new reservation id, numbered `index + 1`, holding the day's padded slots. |
| `Booking.BookedRowsOf` | api/trips/book.php:43-60 | Selecting the fresh reservation id after the inserts returns exactly the rows the loop inserted, because no earlier row uses that id. |
| `Booking.BookedDays` | api/trips/book.php:46-60 | After a successful booking of N days, the new reservation has exactly N itinerary rows, numbered 1..N in day order, carrying the padded submitted slots. An empty or non-list itinerary gives no rows while the reservation is still created. |
| `Booking.BookingReferenceFormat` | api/trips/book.php:71 | For a draw in [100000, 999999] the booking reference is nine characters: "TP-" followed by six digits that denote the draw. |
| `ReservationQueries.Listing` | api/user/reservations.php:11-85 | A non-GET gives "Invalid request method". A GET fails exactly when `userId` is empty, with "User ID is required". No other failure exists. |
| `ReservationQueries.ListingByRows` | api/user/reservations.php:30-73 | The response is determined row by row: it lists, in the outer query's order, the view of each joined row together with its own itinerary. |
| `ReservationQueries.ReservationReferenceFormat` | api/user/reservations.php:65 | The reference of reservation `i` is "TP-" followed by digits that denote `100000 + i`. |
| `ReservationQueries.JoinRows` | api/user/reservations.php:19-23 | The join has no more rows than there are reservations. Each row pairs a reservation of the requested user with a travel plan whose id is the reservation's `travel_plan_id`. |
| `ReservationQueries.JoinRowsCounts` | api/user/reservations.php:19-23 | A reservation of the user whose plan exists yields its joined row once for each time it occurs in the table. Every other pairing yields none, so distinct reservations give distinct rows. |
| `ReservationQueries.UserRows` | api/user/reservations.php:19-24 | The outer query returns a permutation of the user's joined rows, ordered by travel date, latest first. |
| `ReservationQueries.JoinRowsMembership` | api/user/reservations.php:19-23 | A joined row is in the join exactly when its reservation is in the table, belongs to the user, and its travel plan is the row of `travel_plans` with the reservation's plan id. |
| `ReservationQueries.DatesTotalPreorder` | api/user/reservations.php:24 | "Travel date no earlier than" is a total preorder, so ordering by it is well defined. |
| `ReservationQueries.ListingOnlyOwner` | api/user/reservations.php:19-64 | Every listed reservation is a row of `reservations` owned by the requested user, with that row's date, party size, price and status. |
| `ReservationQueries.ListingNewestFirst` | api/user/reservations.php:24 | The listed reservations are ordered by travel date, latest first. |
| `ReservationQueries.ListedRow` | api/user/reservations.php:52-66 | The i-th listed entry comes from a joined row of the user. Its id is that reservation's id, and its booking reference is "TP-" with `100000 + id`. Its itinerary is that reservation's itinerary. Its destination carries the plan's id, `title` as the name, its location, `image_url` as the image, and its duration. |
| `ReservationQueries.ListingIncludes` | api/user/reservations.php:19-23 | Every reservation of the user whose travel plan exists is listed. |
| `ReservationQueries.ListingOmitsOrphans` | api/user/reservations.php:22 | A reservation whose travel plan does not exist is never listed (inner join). |
| `ReservationQueries.ListingEmpty` | api/user/reservations.php:74-78 | A user without reservations gets success with an empty list, not an error. |
| `ReservationQueries.ItineraryInDayOrder` | api/user/reservations.php:35-50 | A reservation's itinerary is a permutation of its itinerary rows, ordered by ascending day number, each given as `[morning, afternoon, evening]`. |
| `ReservationQueries.DayRowsInOrder` | api/user/reservations.php:38 | The rows the booking loop inserts are already in day-number order. |
| `ReservationQueries.BookThenList` | api/user/reservations.php:19-67 | Round trip with the booking endpoint: after a successful booking whose plan exists, listing the booking user's reservations shows the new reservation. It carries the booked date, party size, price, destination, status 'confirmed' and its "TP-" reference. Its itinerary is the submitted days, each padded to three slots, in the submitted order. |
| `ReservationQueries.ListAfterBooking` | api/user/reservations.php:19-67 | The read-back half of the round trip, for any tables that hold the booked reservation row and its day rows. |
| `ReservationQueries.BookedRowJoined` | api/user/reservations.php:19-23 | The booked reservation, joined with its plan, is one of its user's rows. |
| `ReservationQueries.ReadBackDays` | api/user/reservations.php:35-50 | Reading back the itinerary of the freshly booked reservation gives exactly the submitted days, padded, in day order. |
| `Cancellation.WithStatus` | api/user/cancel-reservation.php:27-28 | The update keeps every row in place. Exactly the rows with the given id take the new status, and no other field of any row changes. |
| `Cancellation.Cancel` | api/user/cancel-reservation.php:12-46 | Succeeds exactly for a POST with both ids non-empty where the reservation exists and belongs to the user. The failures are "Invalid request method", "Incomplete data" and "Reservation not found or doesn't belong to user", and they leave the tables unchanged. A success carries "Reservation cancelled successfully". The invariant is kept. |
| `Cancellation.CancelTouchesOnlyStatus` | api/user/cancel-reservation.php:21-34 | A successful cancellation changes one reservation, the user's own, and only its status, which becomes 'cancelled'. Every other reservation, the itineraries, the users and the plans are untouched. |
| `Cancellation.CancelIdempotent` | api/user/cancel-reservation.php:21-28 | Cancelling again succeeds too, because the ownership check ignores the status, and it leaves the tables as the first cancellation left them. |
| `Cancellation.WithStatusTwice` | api/user/cancel-reservation.php:27 | Setting the same status twice is the same as setting it once. |
| `Accounts.Register` | api/auth/register.php:12-60 | Succeeds exactly for a POST with non-empty name, email and password whose sanitised email is not yet registered. The failures are "Invalid request method", "Incomplete data" and "Email already exists", and they leave the tables unchanged. On success exactly one user row is added, under the next id, with the sanitised name and email and the password's hash, not the password. The response carries "User registered successfully" and echoes the id, name and email. Email uniqueness and the rest of the invariant are kept. |
| `Accounts.FindByEmail` | api/auth/login.php:22-34 | Returns a row with that email, or none exactly when no row has that email. The row returned is the first such row: every row before it has another email. |
| `Accounts.FindByEmailUnique` | api/auth/login.php:33-34 | When emails are distinct, the row found for a user's email is that user's own row. |
| `Accounts.LookUp` | api/auth/login.php:12-58 | The lookup-and-verify logic of the login endpoint. A non-POST gives "Invalid request method" and a missing field gives "Incomplete data". "User not found" is returned exactly when no row has the email. "Invalid password" is returned exactly when the first row with that email has a hash that does not verify. Conversely, the result is a success exactly for a POST with both fields non-empty whose email some row has and whose password verifies against the first such row's hash. A success carries "Login successful" and that same first row's id, name and email, and never the hash. |
| `Accounts.LoginAsWritten` | api/auth/login.php:22-37 | The endpoint as written, over `travelers.hashed_password`: a success comes from a row of that table. |
| `Accounts.Login` | api/auth/login.php:22-37 | The endpoint over the `users` table that registration writes. It succeeds exactly for a POST with both fields non-empty whose sanitised email a user has and whose password verifies against the first such user's hash; a success carries "Login successful" and comes from a user row. Login reads the tables and changes none. |
| `Accounts.RegisterThenLogin` | api/auth/login.php:16-46 | With `users` as the table, a freshly registered user logs in with the registered email and password and gets back the new row's id, name and email. |
| `Accounts.RegisterThenLoginAsWrittenFails` | api/auth/login.php:22 | Counterexample: after a successful registration, the login as written answers "User not found", because registration never writes `travelers`. |
| `Accounts.UpdateRows` | api/user/update-profile.php:38-44 | Only the row with the user's id changes: it gets the new name and email, and the new hash if one is given. Every other row is unchanged. |
| `Accounts.UpdateProfile` | api/user/update-profile.php:12-65 | Succeeds exactly for a POST with non-empty user id, name and email whose sanitised email no other user has. The failures are "Invalid request method", "Incomplete data" and "Email is already taken by another user", and they leave the tables unchanged. On success the rows are updated as `UpdateRows` describes, with a new hash exactly when a password was sent. The response carries "Profile updated successfully" and echoes the id and the sanitised name and email. The invariant is kept. |
| `Accounts.UpdateThenLogin` | api/user/update-profile.php:35-40 | After a successful profile update that sent a new password, logging in with the new email and that password succeeds and returns the user's id with the new name and email. |
| `Accounts.UpdateKeepsValid` | api/user/update-profile.php:26-44 | An update whose email no other user has keeps emails unique. |
| `Accounts.KeepingOwnEmail` | api/user/update-profile.php:26 | Submitting one's own current email is not a conflict: the update succeeds. |
| `Accounts.UpdatedRow` | api/user/update-profile.php:35-45 | After an update the user's row has the new name and email. Its hash is that of the new password when one was sent, and unchanged otherwise. Every other user's row is unchanged. |
| `ReservationStore.Store.Book` | api/trips/book.php:26-79 | The transaction inserts the reservation, then one row per day in the `foreach`. An exception at any statement restores every table. The new tables and the response are those of `Booking.Book`, and the invariant is kept. |
| `ReservationStore.Store.ListReservations` | api/user/reservations.php:11-85 | The fetch loops return exactly `Listing` of the current tables. |
| `ReservationStore.Views` | api/user/reservations.php:33-68 | The outer `while` loop produces one view per outer row, in order, each with its reservation's itinerary. |
| `ReservationStore.ViewFor` | api/user/reservations.php:52-67 | One outer row becomes its view, carrying the itinerary its reservation has. |
| `ReservationStore.Itinerary` | api/user/reservations.php:35-50 | The inner loop produces exactly the reservation's itinerary triples, in day order. |
| `ReservationStore.Store.Cancel` | api/user/cancel-reservation.php:16-34 | The ownership check, then the status update. The new tables and the response are those of `Cancellation.Cancel`, and the invariant is kept. |
| `ReservationStore.Store.Register` | api/auth/register.php:16-51 | The email check, then the insert under the next id. The new tables and the response are those of `Accounts.Register`, and the invariant is kept. |
| `ReservationStore.Store.UpdateProfile` | api/user/update-profile.php:16-56 | The uniqueness check, then one of the two updates. The new tables and the response are those of `Accounts.UpdateProfile`, and the invariant is kept. |
| `ReservationStore.Store.ListDestinations` | api/trips/destinations.php:11-49 | A non-GET gives "Invalid request method". A GET gives success with exactly one entry per travel plan, in table order, and so an empty list for an empty table. Each entry renames `title` to name and `image_url` to image and copies the other columns. |
| `DestinationFilter.Filter` | src/pages/Destinations.tsx:131 | `filter` keeps exactly the elements its predicate accepts and never adds any. Each accepted value occurs as often as in the input, and each rejected value not at all. |
| `DestinationFilter.Filtered` | src/pages/Destinations.tsx:131-156 | A destination is shown exactly when it is in the list and matches the search, the inclusive price range, the duration bucket and the location. |
| `DestinationFilter.FilterIsSubsequence` | src/pages/Destinations.tsx:131 | The result of `filter` is a subsequence of its input, in the original order. |
| `DestinationFilter.FilteredKeepsOrder` | src/pages/Destinations.tsx:131 | The filtered destinations are a subsequence of all destinations, in the original order. |
| `DestinationFilter.EmptySearchMatchesAll` | src/pages/Destinations.tsx:133-135 | An empty search term matches every destination. |
| `DestinationFilter.SearchIgnoresCase` | src/pages/Destinations.tsx:133-135 | Lower-casing the search term does not change which destinations match. |
| `DestinationFilter.DurationBucketsPartition` | src/pages/Destinations.tsx:141-150 | Every positive duration lies in exactly one of '1-5', '6-10' and '10+' (10 lies in '6-10'). |
| `DestinationFilter.Dedup` | src/pages/Destinations.tsx:158 | `Array.from(new Set(..))` holds each value once and exactly the values of its input. |
| `DestinationFilter.LexLeqTotalPreorder` | src/pages/Destinations.tsx:158 | The default string order of `sort` is a total preorder. |
| `DestinationFilter.Locations` | src/pages/Destinations.tsx:158 | The location list holds exactly the set of destination locations, each once, in strictly ascending string order. |
| `DestinationFilter.ResetShowsPriceRange` | src/pages/Destinations.tsx:125-165 | After a reset a destination is shown exactly when its price lies in [0, 2000]. |
| `DestinationFilter.ResetShowsAllInRange` | src/pages/Destinations.tsx:125-165 | After a reset, a list whose prices all lie in [0, 2000] is shown whole, in order. |
| `Text.Lower` | src/pages/Destinations.tsx:133-135 | `toLowerCase` keeps the length and maps each character on its own. |
| `Text.LowerIdempotent` | src/pages/Destinations.tsx:133-135 | Lower-casing twice is lower-casing once. |
| `Text.ContainsIffOccurs` | src/pages/Destinations.tsx:133-135 | `includes` holds exactly when the needle occurs at some position of the string. |
| `Text.LexLeqTotal` | src/pages/Destinations.tsx:158 | Any two strings are comparable in the sort order. |
| `Text.LexLeqTransitive` | src/pages/Destinations.tsx:158 | The sort order is transitive. |
| `Text.LexLeqAntisymmetric` | src/pages/Destinations.tsx:158 | Two strings that each sort no later than the other are equal. |
| `Text.DecimalRoundTrip` | api/user/reservations.php:65 | The digits PHP prints for a number denote that number. |
| `Sorting.SortBy` | api/user/reservations.php:24 | Ordering the rows is a permutation of them. |
| `Sorting.SortBySorted` | api/user/reservations.php:24 | Under a total preorder, the ordered rows are sorted. |
| `Sorting.SortByOfSorted` | api/user/reservations.php:38 | Ordering rows that are already in order leaves them unchanged. The booking loop inserts day rows in day order, so the inner query returns them as inserted. |
| `Sorting.InsertStable` | api/user/reservations.php:24 | Inserting an element moves it only past elements with a strictly smaller key, so among the elements tied with any key it stays first. |
| `Sorting.SortByStable` | api/user/reservations.php:24 | The sort is stable on any input: for every key, the elements with that key come out in the order they had in the table. |
| `Sorting.PermutationDistinct` | src/pages/Destinations.tsx:158 | Sorting a duplicate-free list keeps it duplicate-free. |
| `Random.PickIndex` | src/services/api.ts:208 | `Math.floor(Math.random() * n)` is a valid index into a list of n elements. |
| `Random.PickIndexCovers` | src/services/api.ts:208 | Every index can be drawn. |
| `ApiService.MorningActivities` | src/services/api.ts:180-187 | Exactly six morning templates, filled in with the destination's name or location. |
| `ApiService.AfternoonActivities` | src/services/api.ts:189-196 | Exactly six afternoon templates, filled in with the destination's name. |
| `ApiService.EveningActivities` | src/services/api.ts:198-205 | Exactly six evening templates, filled in with the destination's name. |
| `ApiService.RandomActivity` | src/services/api.ts:207-209 | On a non-empty list the drawn activity is one of its elements. On an empty list the result is `undefined`, modelled as `None`. |
| `ApiService.RandomActivityReachesAll` | src/services/api.ts:207-209 | Every activity of a non-empty list can be drawn. |
| `ApiService.DrawnDay` | src/services/api.ts:214-218 | A day is three activities: one morning, one afternoon and one evening template. |
| `ApiService.GenerateItinerary` | src/services/api.ts:177-222 | No destination gives no days. Otherwise the itinerary has `duration` days, none when the duration is not positive. Each day is exactly three activities: day[0] from the morning list, day[1] from the afternoon list and day[2] from the evening list. |
| `ApiService.DrawDays` | src/services/api.ts:211-221 | The `for` loop yields one drawn day per unit of duration, in day order. |
| `PlanTrip.TableFor` | src/pages/PlanTrip.tsx:20-43 | "Paris" and "Tokyo" get their own tables and every other name gets the generic table. Every category of the chosen table is non-empty. |
| `PlanTrip.Pick` | src/pages/PlanTrip.tsx:120 | The drawn activity is an element of the category list. |
| `PlanTrip.PlannedDay` | src/pages/PlanTrip.tsx:116-130 | A planned day has exactly three activities. The morning one comes from the sightseeing or culture list, the afternoon one from the food or outdoor list, and the evening one from the food or relaxation list. |
| `PlanTrip.BuildItinerary` | src/pages/PlanTrip.tsx:110-131 | The loop yields one planned day per unit of the destination's duration, in day order, and none when the duration is not positive. |
| `PlanTrip.GenericDaySlots` | src/pages/PlanTrip.tsx:113-128 | For a destination without its own table, each slot comes from the matching generic lists. |
| `JsParse.TrimStart` | src/pages/PlanTrip.tsx:82 | `parseInt` skips leading white space: the result is a suffix of the input, every character removed before it is white space, and it does not start with white space. |
| `JsParse.DigitPrefix` | src/pages/PlanTrip.tsx:82 | The digits `parseInt` reads are the longest run of digits at the start. |
| `JsParse.HexPrefix` | src/pages/PlanTrip.tsx:82 | After `0x`, the digits `parseInt` reads are the longest run of hexadecimal digits. |
| `JsParse.ParseInt` | src/pages/PlanTrip.tsx:82 | `parseInt` without a radix first skips leading white space and an optional sign. If `0x` or `0X` follows, the result is `NaN` exactly when no hexadecimal digit comes after it. Otherwise the result is `NaN` exactly when no decimal digit follows. |
| `JsParse.ParseIntDecimal` | src/pages/PlanTrip.tsx:82 | `parseInt` reads a number's decimal string back as that number. |
| `JsParse.ParseIntHex` | src/pages/PlanTrip.tsx:82 | After `0x` or `0X`, `parseInt` reads a run of hexadecimal digits in base 16, so a traveler count of "0x10" counts sixteen. |
| `PlanTrip.TotalPriceParses` | src/pages/PlanTrip.tsx:82 | The total is the price times the parsed traveler count. An empty count counts as one, and the total is `NaN` exactly when a non-empty count does not parse. |
| `PlanTrip.TotalPriceOfCount` | src/pages/PlanTrip.tsx:82 | The total for a traveler count of n is the per-person price times n. An empty count counts as one traveler. |
| `PlanTrip.TotalPriceNotANumber` | src/pages/PlanTrip.tsx:82 | A traveler count that does not start with a digit, sign or white space gives a `NaN` total. |
| `PlanTrip.FindById` | src/pages/PlanTrip.tsx:88-89 | `find` returns the first destination with that id, or none when no destination has it. A `NaN` id matches none. |
| `PlanTrip.PlanTripPage.constructor` | src/pages/PlanTrip.tsx:51-59 | The page starts with no destination, no date, "2" travelers, no itinerary, a total of 0 and the details tab. |
| `PlanTrip.PlanTripPage.RefreshTotal` | src/pages/PlanTrip.tsx:80-84 | With a destination selected, the total becomes its price times the parsed traveler count, read as '1' when empty. Otherwise nothing changes. |
| `PlanTrip.PlanTripPage.ChangeDestination` | src/pages/PlanTrip.tsx:86-94 | Once the destinations are loaded, selects the one whose id the value parses to, or none, clears the itinerary and recomputes the total. Before they load, nothing changes. |
| `PlanTrip.PlanTripPage.ChangeTravelers` | src/pages/PlanTrip.tsx:100-102 | Stores the traveler count and recomputes the total. |
| `PlanTrip.PlanTripPage.ChangeDate` | src/pages/PlanTrip.tsx:96-98 | Stores the date and changes nothing else. |
| `PlanTrip.PlanTripPage.GenerateItinerary` | src/pages/PlanTrip.tsx:104-135 | Without a destination or a date, nothing changes. Otherwise the itinerary becomes one planned day per unit of the destination's duration, drawn from its table, and the itinerary tab opens. |
| `PlanTrip.PlanTripPage.Continue` | src/pages/PlanTrip.tsx:137-149 | Without a destination, a date or a traveler count, nothing changes. Otherwise an itinerary is generated if there is none yet, an existing one is kept, and the reservation tab is shown. |

## Left out

- I/O and transport: the CORS headers, JSON decoding and encoding, and the database connection in `api/config/database.php` are not modelled. A request arrives as a datatype of PHP-`empty`-aware fields, and the response is a `Response` value.
- JSON types: a field is either absent (or null) or given with the type the endpoint uses. Strings where numbers are expected, arrays where scalars are expected, and non-numeric `userId` query strings are not modelled.
- Floats: `price` and `total_price` are integers. The `(float)` and `(int)` casts of the listings are the identity.
- SQL mechanics: `lastInsertId` is a counter that only the successful insert advances, and a rollback restores it too. MySQL can consume an auto-increment value on a rolled-back insert; this is not modelled.
- SQL ordering: rows with equal sort keys keep their table order, because the model's sort is stable (`Sorting.SortByStable`). SQL leaves the order of ties unspecified, so the model fixes one of the orders the database may return.
- Collation: emails are compared by exact string equality, in the duplicate checks and in the login lookup. The default MySQL collations compare case-insensitively, so the database may treat as equal two emails the model keeps apart, such as "Ann@example.com" and "ann@example.com".
- Dates: `travel_date` is stored, echoed and ordered as the submitted text. A `DATE` column would normalise or reject malformed values, and the model does neither. The order is that of the text, which agrees with date order for `YYYY-MM-DD` strings.
- Concurrency: each request runs alone and to completion. The check-then-insert of registration and the check-then-update of the profile are not atomic, so concurrent requests could create duplicate emails. `Schema.UniqueEmails` holds only for requests served one at a time.
- Unreachable error paths: the "Unable to register user", "Unable to update profile" and "Unable to cancel reservation" branches need `execute` to return false, which `ERRMODE_EXCEPTION` rules out.
- Uncaught exceptions: exceptions outside `book.php`, and a failing `commit` in `book.php`, would end the request with a PHP error. They are not modelled.
- Initial status: no insert sets `status`. The model gives a new reservation the status 'confirmed', the column default the front end expects. That default is an assumption, since the schema is not part of this model.
- Destination check: `book.php` does not check that the destination exists, and neither does the model. The read-back round trip therefore assumes the plan exists.
- Booking references: the reference `book.php` returns (a random number) and the one `reservations.php` reports (`100000 + id`) are unrelated, and no property relates them.
- `rand` is not modelled: the drawn number is a parameter, and its range [100000, 999999] is a precondition of `Booking.BookingReferenceFormat`.
- Library functions: `password_hash`, `password_verify` and `htmlspecialchars(strip_tags(..))` are parameters. Only `Schema.Sound` is assumed of them.
- Text:
  - `toLowerCase` is ASCII only.
  - The default `sort` order compares characters, not UTF-16 code units.
  - `parseInt` returns an unbounded integer. A JavaScript number loses precision above 2^53, and the model does not.
- `PlanTrip.TableFor`: `destinationActivities[name]` is a JavaScript property lookup, so a name such as "constructor" would find an inherited property. The model treats every name other than "Paris" and "Tokyo" as generic.
- Catalogue data: the static `allDestinations` array of the destinations page and the contents of `travel_plans` are parameters, not constants.
- Front end outside the pure logic:
  - the network wrappers of `src/services/api.ts`;
  - the React rendering, toasts and `console.log`;
  - the effect that selects the destination from the URL parameter;
  - the asynchronous `handleReservation`;
  - the other pages and components.
- `PlanTrip.PlanTripPage.GenerateItinerary`: the toast on a missing destination or date is left out.

## Findings

| source | as written | input that shows it | evidently intended | confidence | as-written member | corrected member |
|---|---|---|---|---|---|---|
| api/auth/login.php:22 | Login reads `hashed_password` from the table `travelers`, but registration (api/auth/register.php:36) and profile update write `password_hash` in `users`. If a `travelers` table exists without that email, login answers "User not found". If it does not exist, the query at api/auth/login.php:28-31 raises a PDOException, because the connection is in exception mode (api/config/database.php:13) and login.php catches nothing, so no JSON envelope is sent. | Register "ann@example.com" with password "secret", then log in with the same email and password: login does not succeed, answering "User not found" when a `travelers` table exists (the model covers this outcome), or failing with an uncaught exception when it does not. | Login looks the email up in `users` and verifies against `password_hash`, so that a registered user can log in. | not executed | `Accounts.LoginAsWritten`, `Accounts.RegisterThenLoginAsWrittenFails` | `Accounts.Login`, `Accounts.RegisterThenLogin` |

=== FILE: accounts.dfy ===
/** The account endpoints: `POST /auth/register`, `POST /auth/login` and
    `POST /user/update-profile`. Names and emails are stored sanitised, and
    passwords only as `password_hash` digests. */
module Accounts {
  import opened Wrappers
  import opened Schema

  datatype RegisterRequest = RegisterRequest(name: Field<string>, email: Field<string>, password: Field<string>)
  datatype LoginRequest = LoginRequest(email: Field<string>, password: Field<string>)
  datatype UpdateRequest = UpdateRequest(
    userId: Field<int>, name: Field<string>, email: Field<string>, password: Field<string>)

  /** The `user` object of a response: never the hash. */
  datatype UserInfo = UserInfo(id: int, name: string, email: string)

  const EmailExists := "Email already exists"
  const Registered := "User registered successfully"
  const UserNotFound := "User not found"
  const InvalidPassword := "Invalid password"
  const LoggedIn := "Login successful"
  const EmailTakenByOther := "Email is already taken by another user"
  const ProfileUpdated := "Profile updated successfully"

  predicate EmailTaken(users: seq<User>, email: string)
  {
    exists u :: u in users && u.email == email
  }

  predicate TakenByOther(users: seq<User>, email: string, uid: int)
  {
    exists u :: u in users && u.email == email && u.id != uid
  }

  // ---------------------------------------------------------------- register

  function Register(t: Tables, m: HttpMethod, req: RegisterRequest, b: Builtins, salt: nat)
    : (out: (Tables, Response<UserInfo>))
    requires Valid(t)
    ensures Valid(out.0)
    ensures out.1.Failure? ==> out.0 == t
    ensures out.1.Success? <==>
              m == Post && !EmptyText(req.name) && !EmptyText(req.email) && !EmptyText(req.password) &&
              !EmailTaken(t.users, b.sanitize(req.email.value))
    ensures m != Post ==> out.1 == Failure(InvalidMethod)
    ensures m == Post && (EmptyText(req.name) || EmptyText(req.email) || EmptyText(req.password)) ==>
              out.1 == Failure(IncompleteData)
    ensures m == Post && !EmptyText(req.name) && !EmptyText(req.email) && !EmptyText(req.password) &&
            EmailTaken(t.users, b.sanitize(req.email.value)) ==>
              out.1 == Failure(EmailExists)
    ensures out.1.Success? ==>
              out.0 == t.(users := t.users + [User(t.nextUserId, b.sanitize(req.name.value),
                                                   b.sanitize(req.email.value),
                                                   b.passwordHash(req.password.value, salt))],
                           nextUserId := t.nextUserId + 1) &&
              out.1.data == UserInfo(t.nextUserId, b.sanitize(req.name.value), b.sanitize(req.email.value))
    ensures out.1.Success? ==> out.1.message == Registered
  {
    if m != Post then (t, Failure(InvalidMethod))
    else if EmptyText(req.name) || EmptyText(req.email) || EmptyText(req.password) then
      (t, Failure(IncompleteData))
    else
      var name := b.sanitize(req.name.value);
      var email := b.sanitize(req.email.value);
      if EmailTaken(t.users, email) then (t, Failure(EmailExists))
      else
        var id := t.nextUserId;
        var t' := t.(users := t.users + [User(id, name, email, b.passwordHash(req.password.value, salt))],
                     nextUserId := id + 1);
        assert UniqueEmails(t'.users) by {
          forall i | 0 <= i < |t.users| ensures t'.users[i].email != email {
            assert t.users[i] in t.users;
          }
        }
        (t', Success(Registered, UserInfo(id, name, email)))
  }

  // ------------------------------------------------------------------- login

  /** The first row whose email matches (`$stmt->fetch()`). */
  function FindByEmail(rows: seq<User>, email: string): (r: Option<User>)
    ensures r.Some? ==> r.value in rows && r.value.email == email
    ensures r.None? <==> !EmailTaken(rows, email)
    ensures r.Some? ==> exists k :: 0 <= k < |rows| && rows[k] == r.value &&
                           forall j :: 0 <= j < k ==> rows[j].email != email
  {
    if rows == [] then None
    else if rows[0].email == email then Some(rows[0])
    else
      assert rows == [rows[0]] + rows[1..];
      var rest := FindByEmail(rows[1..], email);
      assert rest.Some? ==> forall k :: 0 <= k < |rows[1..]| ==> rows[1..][k] == rows[k + 1];
      rest
  }

  /** The lookup-and-verify logic of the login endpoint, over whichever table
      of accounts it queries. */
  function LookUp(rows: seq<User>, m: HttpMethod, req: LoginRequest, b: Builtins): (r: Response<UserInfo>)
    ensures r.Success? ==>
              m == Post && !EmptyText(req.email) && !EmptyText(req.password) &&
              FindByEmail(rows, b.sanitize(req.email.value)).Some? &&
              var u := FindByEmail(rows, b.sanitize(req.email.value)).value;
              b.passwordVerify(req.password.value, u.passwordHash) &&
              r.data == UserInfo(u.id, u.name, u.email)
    ensures m != Post ==> r == Failure(InvalidMethod)
    ensures m == Post && (EmptyText(req.email) || EmptyText(req.password)) ==> r == Failure(IncompleteData)
    ensures m == Post && !EmptyText(req.email) && !EmptyText(req.password) ==>
              (r == Failure(UserNotFound) <==> !EmailTaken(rows, b.sanitize(req.email.value)))
    ensures m == Post && !EmptyText(req.email) && !EmptyText(req.password) &&
            EmailTaken(rows, b.sanitize(req.email.value)) ==>
              (r == Failure(InvalidPassword) <==>
               !b.passwordVerify(req.password.value, FindByEmail(rows, b.sanitize(req.email.value)).value.passwordHash))
    ensures r.Success? <==>
              m == Post && !EmptyText(req.email) && !EmptyText(req.password) &&
              EmailTaken(rows, b.sanitize(req.email.value)) &&
              b.passwordVerify(req.password.value, FindByEmail(rows, b.sanitize(req.email.value)).value.passwordHash)
    ensures r.Success? ==> r.message == LoggedIn
  {
    if m != Post then Failure(InvalidMethod)
    else if EmptyText(req.email) || EmptyText(req.password) then Failure(IncompleteData)
    else
      match FindByEmail(rows, b.sanitize(req.email.value))
      case None => Failure(UserNotFound)
      case Some(u) =>
        if b.passwordVerify(req.password.value, u.passwordHash)
        then Success(LoggedIn, UserInfo(u.id, u.name, u.email))
        else Failure(InvalidPassword)
  }

  /** login.php as written: it queries `travelers` (column `hashed_password`),
      a table none of the endpoints writes. Its rows have the shape of `User`. */
  function LoginAsWritten(travelers: seq<User>, m: HttpMethod, req: LoginRequest, b: Builtins)
    : (r: Response<UserInfo>)
    ensures r.Success? ==> exists u :: u in travelers && r.data == UserInfo(u.id, u.name, u.email)
  {
    LookUp(travelers, m, req, b)
  }

  /** login.php against the table registration writes. */
  function Login(t: Tables, m: HttpMethod, req: LoginRequest, b: Builtins): (r: Response<UserInfo>)
    ensures r.Success? ==> exists u :: u in t.users && r.data == UserInfo(u.id, u.name, u.email)
    ensures r.Success? <==>
              m == Post && !EmptyText(req.email) && !EmptyText(req.password) &&
              EmailTaken(t.users, b.sanitize(req.email.value)) &&
              b.passwordVerify(req.password.value, FindByEmail(t.users, b.sanitize(req.email.value)).value.passwordHash)
    ensures r.Success? ==> r.message == LoggedIn
  {
    LookUp(t.users, m, req, b)
  }

  /** With `users` as the table, a freshly registered user logs in with the
      registered email and password and gets back the new row's id. */
  lemma RegisterThenLogin(t: Tables, req: RegisterRequest, b: Builtins, salt: nat)
    requires Valid(t) && Sound(b)
    requires Register(t, Post, req, b, salt).1.Success?
    ensures Login(Register(t, Post, req, b, salt).0, Post, LoginRequest(req.email, req.password), b)
            == Success(LoggedIn, Register(t, Post, req, b, salt).1.data)
  {
    var out := Register(t, Post, req, b, salt);
    var email := b.sanitize(req.email.value);
    var u := out.0.users[|t.users|];
    assert u.email == email;
    FindByEmailOfLast(t.users, u);
    assert b.passwordVerify(req.password.value, b.passwordHash(req.password.value, salt));
  }

  lemma {:induction false} FindByEmailOfLast(users: seq<User>, u: User)
    requires !EmailTaken(users, u.email)
    ensures FindByEmail(users + [u], u.email) == Some(u)
  {
    if users != [] {
      assert users[0] in users;
      assert (users + [u])[1..] == users[1..] + [u];
      FindByEmailOfLast(users[1..], u);
    }
  }

  /** With distinct emails, the row `FindByEmail` returns for an email is the
      one row that has it. */
  lemma FindByEmailUnique(users: seq<User>, k: int)
    requires UniqueEmails(users) && 0 <= k < |users|
    ensures FindByEmail(users, users[k].email) == Some(users[k])
  {
    var r := FindByEmail(users, users[k].email);
    assert users[k] in users;
    var k' :| 0 <= k' < |users| && users[k'] == r.value &&
              forall j :: 0 <= j < k' ==> users[j].email != users[k].email;
    assert k' == k;
  }

  /** As written, the same registration is followed by "User not found" from
      login.php, because registration never adds a row to `travelers`. */
  lemma RegisterThenLoginAsWrittenFails()
    ensures var t := Tables([], [], [], [], 1, 1);
            var b := Builtins((p, s) => p, (p, h) => p == h, s => s);
            var req := RegisterRequest(Given("Ann"), Given("ann@example.com"), Given("secret"));
            Register(t, Post, req, b, 0).1.Success? &&
            Login(Register(t, Post, req, b, 0).0, Post, LoginRequest(req.email, req.password), b).Success? &&
            LoginAsWritten([], Post, LoginRequest(req.email, req.password), b) == Failure(UserNotFound)
  {
    var t := Tables([], [], [], [], 1, 1);
    var b := Builtins((p, s) => p, (p, h) => p == h, s => s);
    var req := RegisterRequest(Given("Ann"), Given("ann@example.com"), Given("secret"));
    RegisterThenLogin(t, req, b, 0);
  }

  // ---------------------------------------------------------- update profile

  /** `UPDATE users SET name = ?, email = ?[, password_hash = ?] WHERE id = ?`. */
  function UpdateRows(users: seq<User>, uid: int, name: string, email: string, hash: Option<string>)
    : (r: seq<User>)
    ensures |r| == |users|
    ensures forall i :: 0 <= i < |users| ==>
              r[i] == if users[i].id != uid then users[i]
                      else users[i].(name := name, email := email,
                                     passwordHash := if hash.Some? then hash.value else users[i].passwordHash)
  {
    if users == [] then []
    else
      var u := users[0];
      [if u.id != uid then u
       else u.(name := name, email := email,
               passwordHash := if hash.Some? then hash.value else u.passwordHash)]
      + UpdateRows(users[1..], uid, name, email, hash)
  }

  /** The digest to store, if the request carries a (non-empty) new password. */
  function NewHash(req: UpdateRequest, b: Builtins, salt: nat): Option<string>
  {
    if EmptyText(req.password) then None else Some(b.passwordHash(req.password.value, salt))
  }

  function UpdateProfile(t: Tables, m: HttpMethod, req: UpdateRequest, b: Builtins, salt: nat)
    : (out: (Tables, Response<UserInfo>))
    requires Valid(t)
    ensures Valid(out.0)
    ensures out.1.Failure? ==> out.0 == t
    ensures out.1.Success? <==>
              m == Post && !EmptyInt(req.userId) && !EmptyText(req.name) && !EmptyText(req.email) &&
              !TakenByOther(t.users, b.sanitize(req.email.value), req.userId.value)
    ensures m != Post ==> out.1 == Failure(InvalidMethod)
    ensures m == Post && (EmptyInt(req.userId) || EmptyText(req.name) || EmptyText(req.email)) ==>
              out.1 == Failure(IncompleteData)
    ensures m == Post && !EmptyInt(req.userId) && !EmptyText(req.name) && !EmptyText(req.email) &&
            TakenByOther(t.users, b.sanitize(req.email.value), req.userId.value) ==>
              out.1 == Failure(EmailTakenByOther)
    ensures out.1.Success? ==>
              out.0 == t.(users := UpdateRows(t.users, req.userId.value, b.sanitize(req.name.value),
                                              b.sanitize(req.email.value), NewHash(req, b, salt))) &&
              out.1.data == UserInfo(req.userId.value, b.sanitize(req.name.value), b.sanitize(req.email.value))
    ensures out.1.Success? ==> out.1.message == ProfileUpdated
  {
    if m != Post then (t, Failure(InvalidMethod))
    else if EmptyInt(req.userId) || EmptyText(req.name) || EmptyText(req.email) then
      (t, Failure(IncompleteData))
    else
      var uid := req.userId.value;
      var name := b.sanitize(req.name.value);
      var email := b.sanitize(req.email.value);
      if TakenByOther(t.users, email, uid) then (t, Failure(EmailTakenByOther))
      else
        UpdateKeepsValid(t, uid, name, email, NewHash(req, b, salt));
        (t.(users := UpdateRows(t.users, uid, name, email, NewHash(req, b, salt))),
         Success(ProfileUpdated, UserInfo(uid, name, email)))
  }

  lemma UpdateKeepsValid(t: Tables, uid: int, name: string, email: string, hash: Option<string>)
    requires Valid(t) && !TakenByOther(t.users, email, uid)
    ensures Valid(t.(users := UpdateRows(t.users, uid, name, email, hash)))
  {
    var us := t.users;
    var us' := UpdateRows(us, uid, name, email, hash);
    forall i, j | 0 <= i < j < |us'| ensures us'[i].email != us'[j].email {
      if us[i].id == uid {
        assert us[j] in us;
      } else if us[j].id == uid {
        assert us[i] in us;
      }
    }
  }

  /** Submitting one's own current email is not a conflict: the update succeeds. */
  lemma KeepingOwnEmail(t: Tables, req: UpdateRequest, b: Builtins, salt: nat, u: User)
    requires Valid(t) && u in t.users
    requires !EmptyInt(req.userId) && !EmptyText(req.name) && !EmptyText(req.email)
    requires u.id == req.userId.value && b.sanitize(req.email.value) == u.email
    ensures UpdateProfile(t, Post, req, b, salt).1.Success?
  {
  }

  /** After a successful update, the user's row carries the new name and
      email; its hash is that of the new password if one was sent and is
      unchanged otherwise; every other user's row is unchanged. */
  lemma UpdatedRow(t: Tables, req: UpdateRequest, b: Builtins, salt: nat, i: int)
    requires Valid(t) && UpdateProfile(t, Post, req, b, salt).1.Success?
    requires 0 <= i < |t.users|
    ensures var u' := UpdateProfile(t, Post, req, b, salt).0.users[i];
            var u := t.users[i];
            if u.id == req.userId.value then
              u'.id == u.id && u'.name == b.sanitize(req.name.value) && u'.email == b.sanitize(req.email.value) &&
              u'.passwordHash == (if EmptyText(req.password) then u.passwordHash
                                  else b.passwordHash(req.password.value, salt))
            else u' == u
  {
  }

  /** After a profile update that sets a new password, the user logs in with
      the new email and password and gets back the updated id, name and email. */
  lemma UpdateThenLogin(t: Tables, req: UpdateRequest, b: Builtins, salt: nat, k: int)
    requires Valid(t) && Sound(b)
    requires UpdateProfile(t, Post, req, b, salt).1.Success? && !EmptyText(req.password)
    requires 0 <= k < |t.users| && t.users[k].id == req.userId.value
    ensures Login(UpdateProfile(t, Post, req, b, salt).0, Post, LoginRequest(req.email, req.password), b)
            == Success(LoggedIn, UpdateProfile(t, Post, req, b, salt).1.data)
  {
    var out := UpdateProfile(t, Post, req, b, salt);
    UpdatedRow(t, req, b, salt, k);
    var u := out.0.users[k];
    assert u.passwordHash == b.passwordHash(req.password.value, salt);
    FindByEmailUnique(out.0.users, k);
    assert b.passwordVerify(req.password.value, u.passwordHash);
  }
}

=== FILE: api_service.dfy ===
/** The itinerary helper of the front end's service layer: three fixed lists
    of six activity templates, filled in with the destination's name or
    location, and a loop that draws one activity of each list per day. */
module ApiService {
  import opened Wrappers
  import opened Catalog
  import Random

  // The template texts; a destination's name or location is spliced in
  // where a template ends or where its prefix and suffix meet.
  const MarketsOf := "Explore the local markets of "
  const GuidedTourOf := "Take a guided tour of "
  const HistoricSites := "'s historic sites"
  const Breakfast := "Enjoy a relaxing breakfast at a local café"
  const FamousMuseumIn := "Visit the most famous museum in "
  const MorningHikeOf := "Take a morning hike with stunning views of "
  const CookingClassOf := "Join a local cooking class to learn "
  const Cuisine := " cuisine"
  const MainAttractionsIn := "Visit the main attractions in "
  const TraditionalLunch := "Enjoy lunch at a traditional restaurant"
  const BoatTourAround := "Take a boat tour around "
  const BeachOrPark := "Relax at a local beach or park"
  const CraftsShopping := "Go shopping for local crafts and souvenirs"
  const PhotographyTourIn := "Take a photography tour of the best spots in "
  const NightlifeOf := "Experience the nightlife of "
  const DinnerShow := "Enjoy a dinner with local entertainment"
  const SunsetWalk := "Take a sunset walk along famous landmarks"
  const CulturalShow := "Attend a cultural show or concert"
  const BestRestaurants := "Try the best local restaurants for dinner"
  const NightTour := "Join a night tour of the illuminated city"

  function MorningActivities(d: Destination): (acts: seq<string>)
    ensures |acts| == 6
  {
    [ MarketsOf + d.name,
      GuidedTourOf + d.name + HistoricSites,
      Breakfast,
      FamousMuseumIn + d.name,
      MorningHikeOf + d.name,
      CookingClassOf + d.location + Cuisine ]
  }

  function AfternoonActivities(d: Destination): (acts: seq<string>)
    ensures |acts| == 6
  {
    [ MainAttractionsIn + d.name,
      TraditionalLunch,
      BoatTourAround + d.name,
      BeachOrPark,
      CraftsShopping,
      PhotographyTourIn + d.name ]
  }

  function EveningActivities(d: Destination): (acts: seq<string>)
    ensures |acts| == 6
  {
    [ NightlifeOf + d.name,
      DinnerShow,
      SunsetWalk,
      CulturalShow,
      BestRestaurants,
      NightTour ]
  }

  /** `getRandomActivity`: the element at the drawn index; on an empty list
      JavaScript yields `undefined`, here `None`. */
  function RandomActivity(activities: seq<string>, r: real): (a: Option<string>)
    requires 0.0 <= r < 1.0
    ensures a.Some? <==> |activities| > 0
    ensures a.Some? ==> a.value in activities
  {
    if |activities| == 0 then None
    else Some(activities[Random.PickIndex(r, |activities|)])
  }

  /** Every activity of a non-empty list can be the one drawn. */
  lemma RandomActivityReachesAll(activities: seq<string>, k: nat)
    requires k < |activities|
    ensures exists r :: 0.0 <= r < 1.0 && RandomActivity(activities, r) == Some(activities[k])
  {
    Random.PickIndexCovers(k, |activities|);
    var r := k as real / |activities| as real;
    assert RandomActivity(activities, r) == Some(activities[k]);
  }

  /** Day `i`: one activity of each list, drawn with draws `3i`, `3i+1` and
      `3i+2` in that order. */
  function DrawnDay(morning: seq<string>, afternoon: seq<string>, evening: seq<string>,
                    random: nat -> real, i: nat): (day: seq<string>)
    requires |morning| > 0 && |afternoon| > 0 && |evening| > 0
    requires Random.UnitInterval(random)
    ensures |day| == 3
    ensures day[0] in morning && day[1] in afternoon && day[2] in evening
  {
    [ RandomActivity(morning, random(3 * i)).value,
      RandomActivity(afternoon, random(3 * i + 1)).value,
      RandomActivity(evening, random(3 * i + 2)).value ]
  }

  /** `generateItinerary(destination)`: no destination gives no days;
      otherwise one day per unit of duration, each of exactly three
      activities: a morning template, an afternoon one and an evening one. */
  method GenerateItinerary(destination: Option<Destination>, random: nat -> real)
    returns (itinerary: seq<seq<string>>)
    requires Random.UnitInterval(random)
    ensures destination.None? ==> itinerary == []
    ensures destination.Some? ==> |itinerary| == DayCount(destination.value.duration)
    ensures destination.Some? ==> forall i :: 0 <= i < |itinerary| ==>
              itinerary[i] == DrawnDay(MorningActivities(destination.value), AfternoonActivities(destination.value),
                                       EveningActivities(destination.value), random, i)
    ensures destination.Some? ==> forall i :: 0 <= i < |itinerary| ==>
              |itinerary[i]| == 3 &&
              itinerary[i][0] in MorningActivities(destination.value) &&
              itinerary[i][1] in AfternoonActivities(destination.value) &&
              itinerary[i][2] in EveningActivities(destination.value)
  {
    if destination.None? {
      return [];
    }
    var d := destination.value;
    itinerary := DrawDays(MorningActivities(d), AfternoonActivities(d), EveningActivities(d), d.duration, random);
  }

  /** The `for` loop of `generateItinerary`: `duration` days, day `i` drawn
      as `DrawnDay` describes. */
  method DrawDays(morning: seq<string>, afternoon: seq<string>, evening: seq<string>,
                  duration: int, random: nat -> real)
    returns (itinerary: seq<seq<string>>)
    requires |morning| > 0 && |afternoon| > 0 && |evening| > 0
    requires Random.UnitInterval(random)
    ensures |itinerary| == DayCount(duration)
    ensures forall i :: 0 <= i < |itinerary| ==> itinerary[i] == DrawnDay(morning, afternoon, evening, random, i)
  {
    itinerary := [];
    var i := 0;
    while i < duration
      invariant 0 <= i <= DayCount(duration)
      invariant |itinerary| == i
      invariant forall k :: 0 <= k < i ==> itinerary[k] == DrawnDay(morning, afternoon, evening, random, k)
    {
      var m := RandomActivity(morning, random(3 * i));
      var a := RandomActivity(afternoon, random(3 * i + 1));
      var e := RandomActivity(evening, random(3 * i + 2));
      itinerary := itinerary + [[m.value, a.value, e.value]];
      i := i + 1;
    }
  }
}

=== FILE: booking.dfy ===
/** `POST /trips/book`: validate the five required fields, then in one
    transaction insert the reservation row and one itinerary row per submitted
    day; on any exception roll everything back. This module is the
    specification of that endpoint as a function of the tables before the call. */
module Booking {
  import opened Schema
  import opened Text

  /** The `itinerary` member of the body: missing, something other than a
      JSON array, or an array of days, each an array of activity strings. */
  datatype ItineraryInput = NoItinerary | NotAList | Days(days: seq<seq<string>>)

  datatype BookRequest = BookRequest(
    userId: Field<int>,
    destinationId: Field<int>,
    travelDate: Field<string>,
    travelers: Field<int>,
    totalPrice: Field<int>,
    itinerary: ItineraryInput)

  /** Which insert statement throws, if any: statement 0 is the reservation
      insert, statement k (k >= 1) the insert of day k. */
  datatype Fault = NoFault | FailsAt(statement: nat, error: string)

  datatype BookingData = BookingData(reservationId: int, bookingReference: string)

  const BookedMessage := "Reservation successful"

  /** None of the five required fields is PHP-`empty`. */
  predicate Complete(req: BookRequest)
  {
    !EmptyInt(req.userId) && !EmptyInt(req.destinationId) && !EmptyText(req.travelDate) &&
    !EmptyInt(req.travelers) && !EmptyInt(req.totalPrice)
  }

  /** The days that get stored: none unless the itinerary is a list. */
  function DaysOf(it: ItineraryInput): seq<seq<string>>
  {
    if it.Days? then it.days else []
  }

  /** `$dayActivities[k] ?? ''`. */
  function Slot(day: seq<string>, k: nat): string
  {
    if k < |day| then day[k] else ""
  }

  function DayRow(id: int, index: nat, day: seq<string>): ItineraryRow
  {
    ItineraryRow(id, index + 1, Slot(day, 0), Slot(day, 1), Slot(day, 2))
  }

  /** The rows the `foreach` inserts for reservation `id`. */
  function DayRows(id: int, days: seq<seq<string>>): seq<ItineraryRow>
  {
    seq(|days|, i requires 0 <= i < |days| => DayRow(id, i, days[i]))
  }

  /** A day as three slots: the first three activities, padded with "". */
  function Padded(day: seq<string>): seq<string>
  {
    (day + ["", "", ""])[..3]
  }

  predicate Throws(fault: Fault, dayCount: nat)
  {
    fault.FailsAt? && fault.statement <= dayCount
  }

  /** `"TP-" . rand(100000, 999999)`, for the number `rand` drew. */
  function BookingReference(draw: int): string
  {
    "TP-" + IntDecimal(draw)
  }

  function NewReservation(t: Tables, req: BookRequest): Reservation
    requires Complete(req)
  {
    Reservation(t.nextReservationId, req.userId.value, req.destinationId.value,
                req.travelDate.value, req.travelers.value, req.totalPrice.value, Confirmed)
  }

  /** The tables after the call and the response. `draw` is what `rand` returns. */
  function Book(t: Tables, m: HttpMethod, req: BookRequest, fault: Fault, draw: int)
    : (out: (Tables, Response<BookingData>))
    requires Valid(t)
    ensures Valid(out.0)
    ensures out.1.Failure? ==> out.0 == t
    ensures out.1.Success? <==> m == Post && Complete(req) && !Throws(fault, |DaysOf(req.itinerary)|)
    ensures m != Post ==> out.1 == Failure(InvalidMethod)
    ensures m == Post && !Complete(req) ==> out.1 == Failure(IncompleteData)
    ensures m == Post && Complete(req) && Throws(fault, |DaysOf(req.itinerary)|) ==>
              out.1 == Failure("Error: " + fault.error)
    ensures out.1.Success? ==>
              out.1.message == BookedMessage && out.1.data.bookingReference == BookingReference(draw)
    ensures out.1.Success? ==>
              out.0.users == t.users && out.0.plans == t.plans &&
              out.0.reservations == t.reservations + [NewReservation(t, req)] &&
              out.0.itineraries == t.itineraries + DayRows(t.nextReservationId, DaysOf(req.itinerary)) &&
              out.0.nextUserId == t.nextUserId && out.0.nextReservationId == t.nextReservationId + 1 &&
              out.1.data.reservationId == t.nextReservationId
  {
    if m != Post then (t, Failure(InvalidMethod))
    else if !Complete(req) then (t, Failure(IncompleteData))
    else
      var days := DaysOf(req.itinerary);
      if Throws(fault, |days|) then (t, Failure("Error: " + fault.error))
      else
        var id := t.nextReservationId;
        BookingKeepsValid(t, req, days);
        var t' := t.(reservations := t.reservations + [NewReservation(t, req)],
                     itineraries := t.itineraries + DayRows(id, days),
                     nextReservationId := id + 1);
        (t', Success(BookedMessage, BookingData(id, BookingReference(draw))))
  }

  lemma BookingKeepsValid(t: Tables, req: BookRequest, days: seq<seq<string>>)
    requires Valid(t) && Complete(req)
    ensures Valid(t.(reservations := t.reservations + [NewReservation(t, req)],
                     itineraries := t.itineraries + DayRows(t.nextReservationId, days),
                     nextReservationId := t.nextReservationId + 1))
  {
    var id := t.nextReservationId;
    var rs := t.reservations + [NewReservation(t, req)];
    var its := t.itineraries + DayRows(id, days);
    assert forall i :: 0 <= i < |rs| ==> 0 < rs[i].id < id + 1;
    assert forall i :: 0 <= i < |its| ==> its[i].reservationId < id + 1 by {
      forall i | 0 <= i < |its| ensures its[i].reservationId < id + 1 {
        if i >= |t.itineraries| {
          assert its[i] == DayRows(id, days)[i - |t.itineraries|];
        }
      }
    }
  }

  /** The stored slots of a day are its first three activities, "" for the missing ones. */
  lemma SlotsArePadded(id: int, index: nat, day: seq<string>)
    ensures var row := DayRow(id, index, day);
            [row.morning, row.afternoon, row.evening] == Padded(day)
  {
    var p := day + ["", "", ""];
    assert forall k :: 0 <= k < 3 ==> Slot(day, k) == p[k];
  }

  /** After a successful booking of N days, the itinerary rows of the new
      reservation are exactly N rows, numbered 1..N in day order, carrying the
      submitted activities. An empty or non-list itinerary gives none. */
  lemma BookedDays(t: Tables, m: HttpMethod, req: BookRequest, fault: Fault, draw: int)
    requires Valid(t)
    requires Book(t, m, req, fault, draw).1.Success?
    ensures var days := DaysOf(req.itinerary);
            var rows := ItineraryRowsOf(Book(t, m, req, fault, draw).0.itineraries, t.nextReservationId);
            |rows| == |days| &&
            (forall k :: 0 <= k < |rows| ==>
               rows[k].dayNumber == k + 1 &&
               [rows[k].morning, rows[k].afternoon, rows[k].evening] == Padded(days[k]))
  {
    var days := DaysOf(req.itinerary);
    BookedRowsOf(t, days);
    DayRowsShape(t.nextReservationId, days);
  }

  /** The rows the loop inserts: one per day, numbered from 1, holding the
      day's padded slots. */
  lemma DayRowsShape(id: int, days: seq<seq<string>>)
    ensures var rows := DayRows(id, days);
            |rows| == |days| &&
            forall k :: 0 <= k < |rows| ==>
              rows[k].reservationId == id && rows[k].dayNumber == k + 1 &&
              [rows[k].morning, rows[k].afternoon, rows[k].evening] == Padded(days[k])
  {
    forall k | 0 <= k < |days| ensures DayRows(id, days)[k] == DayRow(id, k, days[k]) {
      SlotsArePadded(id, k, days[k]);
    }
  }

  /** Selecting the fresh id after appending its day rows gives exactly those rows. */
  lemma BookedRowsOf(t: Tables, days: seq<seq<string>>)
    requires Valid(t)
    ensures var id := t.nextReservationId;
            ItineraryRowsOf(t.itineraries + DayRows(id, days), id) == DayRows(id, days)
  {
    var id := t.nextReservationId;
    ItineraryRowsOfAppend(t.itineraries, DayRows(id, days), id);
    ItineraryRowsOfNone(t.itineraries, id);
    ItineraryRowsOfAll(DayRows(id, days), id);
  }

  /** The booking reference is "TP-" followed by the six digits of the draw. */
  lemma BookingReferenceFormat(draw: int)
    requires 100000 <= draw <= 999999
    ensures var r := BookingReference(draw);
            |r| == 9 && r[..3] == "TP-" && AllDigits(r[3..]) && DigitsValue(r[3..]) == draw
  {
    assert Pow10(5) == 100000 && Pow10(6) == 1000000;
    DecimalLength(draw, 6);
    DecimalRoundTrip(draw);
    var r := BookingReference(draw);
    assert r[3..] == Decimal(draw);
  }
}

=== FILE: cancellation.dfy ===
/** `POST /user/cancel-reservation`: check that the reservation exists and
    belongs to the user, then set its status to 'cancelled'. */
module Cancellation {
  import opened Schema

  datatype CancelRequest = CancelRequest(reservationId: Field<int>, userId: Field<int>)

  const NotOwned := "Reservation not found or doesn't belong to user"
  const CancelledMessage := "Reservation cancelled successfully"

  /** `SELECT id FROM reservations WHERE id = ? AND user_id = ?` finds a row. */
  predicate Owns(rs: seq<Reservation>, rid: int, uid: int)
  {
    exists x :: x in rs && x.id == rid && x.userId == uid
  }

  /** `UPDATE reservations SET status = ? WHERE id = ?`: exactly the rows with
      that id take the new status; nothing else in any row changes. */
  function WithStatus(rs: seq<Reservation>, rid: int, status: string): (r: seq<Reservation>)
    ensures |r| == |rs|
    ensures forall i :: 0 <= i < |rs| ==>
              r[i] == if rs[i].id == rid then rs[i].(status := status) else rs[i]
  {
    if rs == [] then []
    else [if rs[0].id == rid then rs[0].(status := status) else rs[0]] + WithStatus(rs[1..], rid, status)
  }

  function Cancel(t: Tables, m: HttpMethod, req: CancelRequest): (out: (Tables, Response<()>))
    requires Valid(t)
    ensures Valid(out.0)
    ensures out.1.Failure? ==> out.0 == t
    ensures out.1.Success? <==>
              m == Post && !EmptyInt(req.reservationId) && !EmptyInt(req.userId) &&
              Owns(t.reservations, req.reservationId.value, req.userId.value)
    ensures m != Post ==> out.1 == Failure(InvalidMethod)
    ensures m == Post && (EmptyInt(req.reservationId) || EmptyInt(req.userId)) ==> out.1 == Failure(IncompleteData)
    ensures m == Post && !EmptyInt(req.reservationId) && !EmptyInt(req.userId) &&
            !Owns(t.reservations, req.reservationId.value, req.userId.value)
            ==> out.1 == Failure(NotOwned)
    ensures out.1.Success? ==> out.1.message == CancelledMessage
  {
    if m != Post then (t, Failure(InvalidMethod))
    else if EmptyInt(req.reservationId) || EmptyInt(req.userId) then (t, Failure(IncompleteData))
    else if !Owns(t.reservations, req.reservationId.value, req.userId.value) then (t, Failure(NotOwned))
    else (t.(reservations := WithStatus(t.reservations, req.reservationId.value, Cancelled)),
          Success(CancelledMessage, ()))
  }

  /** A successful cancellation changes the status of the one reservation
      with that id to 'cancelled' and nothing else: other reservations, the
      other fields of that one, itineraries, users and plans are untouched. */
  lemma CancelTouchesOnlyStatus(t: Tables, req: CancelRequest)
    requires Valid(t)
    requires Cancel(t, Post, req).1.Success?
    ensures var t' := Cancel(t, Post, req).0;
            var rid := req.reservationId.value;
            t'.users == t.users && t'.plans == t.plans && t'.itineraries == t.itineraries &&
            |t'.reservations| == |t.reservations| &&
            (exists k :: 0 <= k < |t.reservations| && t.reservations[k].id == rid &&
                         t'.reservations[k] == t.reservations[k].(status := Cancelled) &&
                         t.reservations[k].userId == req.userId.value &&
                         forall i :: 0 <= i < |t.reservations| && i != k ==>
                                     t'.reservations[i] == t.reservations[i])
  {
    var rid := req.reservationId.value;
    var x :| x in t.reservations && x.id == rid && x.userId == req.userId.value;
    var k :| 0 <= k < |t.reservations| && t.reservations[k] == x;
  }

  /** Cancelling twice leaves the same tables as cancelling once, and the
      second call succeeds too: the ownership check ignores the status. */
  lemma CancelIdempotent(t: Tables, req: CancelRequest)
    requires Valid(t)
    requires Cancel(t, Post, req).1.Success?
    ensures var t' := Cancel(t, Post, req).0;
            Cancel(t', Post, req) == (t', Success(CancelledMessage, ()))
  {
    var rid := req.reservationId.value;
    var uid := req.userId.value;
    var t' := Cancel(t, Post, req).0;
    var rs' := WithStatus(t.reservations, rid, Cancelled);
    assert t'.reservations == rs';
    var x :| x in t.reservations && x.id == rid && x.userId == uid;
    var k :| 0 <= k < |t.reservations| && t.reservations[k] == x;
    assert rs'[k] in rs' && rs'[k].id == rid && rs'[k].userId == uid;
    assert Owns(rs', rid, uid);
    WithStatusTwice(t.reservations, rid, Cancelled);
    assert t'.(reservations := WithStatus(rs', rid, Cancelled)) == t';
  }

  lemma WithStatusTwice(rs: seq<Reservation>, rid: int, status: string)
    ensures WithStatus(WithStatus(rs, rid, status), rid, status) == WithStatus(rs, rid, status)
  {
    var once := WithStatus(rs, rid, status);
    var twice := WithStatus(once, rid, status);
    forall i | 0 <= i < |once| ensures twice[i] == once[i] {
    }
  }
}

=== FILE: catalog.dfy ===
/** The destination record the front end works with, and its projection from a
    `travel_plans` row by `GET /trips/destinations`. */
module Catalog {
  import opened Schema

  datatype Destination = Destination(
    id: int, name: string, location: string, description: string,
    image: string, price: int, duration: int)

  /** `title` becomes `name` and `image_url` becomes `image`; the other
      columns are copied. */
  function Project(p: TravelPlan): (d: Destination)
    ensures d.id == p.id && d.name == p.title && d.image == p.imageUrl
    ensures d.location == p.location && d.description == p.description
    ensures d.price == p.price && d.duration == p.duration
  {
    Destination(p.id, p.title, p.location, p.description, p.imageUrl, p.price, p.duration)
  }

  /** The number of days a `for (i = 0; i < duration; i++)` loop runs: none
      when the duration is not positive. */
  function DayCount(duration: int): (n: nat)
    ensures n == 0 <==> duration <= 0
    ensures duration > 0 ==> n == duration
  {
    if duration > 0 then duration else 0
  }
}

=== FILE: destination_filter.dfy ===
/** The destinations page: the filter it applies to its destination list,
    the sorted list of locations it offers, and the filter reset. */
module DestinationFilter {
  import opened Catalog
  import opened Text
  import opened Sorting

  /** The page's filter state: the search term, the price range
      `[minPrice, maxPrice]`, the duration bucket and the location. */
  datatype Filters = Filters(
    searchTerm: string, minPrice: int, maxPrice: int, duration: string, location: string)

  /** The name, description or location contains the search term, ignoring case. */
  predicate MatchesSearch(d: Destination, term: string)
  {
    var needle := Lower(term);
    Contains(Lower(d.name), needle) || Contains(Lower(d.description), needle) ||
    Contains(Lower(d.location), needle)
  }

  predicate MatchesPrice(d: Destination, f: Filters)
  {
    d.price >= f.minPrice && d.price <= f.maxPrice
  }

  /** An empty or unknown bucket matches every duration. */
  predicate MatchesDuration(d: Destination, bucket: string)
  {
    if bucket == "" then true
    else if bucket == "1-5" then d.duration >= 1 && d.duration <= 5
    else if bucket == "6-10" then d.duration >= 6 && d.duration <= 10
    else if bucket == "10+" then d.duration > 10
    else true
  }

  predicate MatchesLocation(d: Destination, location: string)
  {
    if location != "" then d.location == location else true
  }

  predicate Keep(d: Destination, f: Filters)
  {
    MatchesSearch(d, f.searchTerm) && MatchesPrice(d, f) &&
    MatchesDuration(d, f.duration) && MatchesLocation(d, f.location)
  }

  /** `Array.prototype.filter`: the elements `keep` accepts, in order. */
  function Filter<T(!new)>(s: seq<T>, keep: T -> bool): (r: seq<T>)
    ensures |r| <= |s|
    ensures forall x :: x in r <==> x in s && keep(x)
    ensures forall x :: multiset(r)[x] == if keep(x) then multiset(s)[x] else 0
  {
    if s == [] then []
    else
      var rest := Filter(s[1..], keep);
      assert s == [s[0]] + s[1..];
      assert multiset(s) == multiset{s[0]} + multiset(s[1..]);
      assert forall x :: x in s <==> x == s[0] || x in s[1..];
      if keep(s[0]) then [s[0]] + rest else rest
  }

  /** `filteredDestinations`: the destinations every filter keeps. */
  function Filtered(all: seq<Destination>, f: Filters): (r: seq<Destination>)
    ensures forall d :: d in r <==> d in all && Keep(d, f)
  {
    Filter(all, Keeps(f))
  }

  /** `r` is `s` with some elements left out, the rest in their order. */
  predicate IsSubsequence<T(==)>(r: seq<T>, s: seq<T>)
    decreases |s|
  {
    r == [] ||
    (s != [] && ((r[0] == s[0] && IsSubsequence(r[1..], s[1..])) || IsSubsequence(r, s[1..])))
  }

  /** A filter's result keeps the accepted elements in their original order. */
  lemma {:induction false} FilterIsSubsequence<T(!new)>(s: seq<T>, keep: T -> bool)
    ensures IsSubsequence(Filter(s, keep), s)
    decreases |s|
  {
    if s != [] {
      FilterIsSubsequence(s[1..], keep);
      var rest := Filter(s[1..], keep);
      if keep(s[0]) {
        assert Filter(s, keep) == [s[0]] + rest;
        assert ([s[0]] + rest)[1..] == rest;
      }
    }
  }

  /** The filters as the predicate handed to `filter`. */
  function Keeps(f: Filters): Destination -> bool
  {
    d => Keep(d, f)
  }

  /** The filtered destinations appear in the order of the full list. */
  lemma FilteredKeepsOrder(all: seq<Destination>, f: Filters)
    ensures IsSubsequence(Filtered(all, f), all)
  {
    FilterIsSubsequence(all, Keeps(f));
  }

  /** An empty search term matches every destination. */
  lemma EmptySearchMatchesAll(d: Destination)
    ensures MatchesSearch(d, "")
  {
    ContainsEmpty(Lower(d.name));
  }

  /** The search ignores the case of the term. */
  lemma SearchIgnoresCase(d: Destination, term: string)
    ensures MatchesSearch(d, term) <==> MatchesSearch(d, Lower(term))
  {
    LowerIdempotent(term);
  }

  /** The three buckets split the positive durations: each positive
      duration lies in exactly one of them (10 lies in '6-10'). */
  lemma DurationBucketsPartition(d: Destination)
    requires d.duration >= 1
    ensures MatchesDuration(d, "1-5") || MatchesDuration(d, "6-10") || MatchesDuration(d, "10+")
    ensures !(MatchesDuration(d, "1-5") && MatchesDuration(d, "6-10"))
    ensures !(MatchesDuration(d, "6-10") && MatchesDuration(d, "10+"))
    ensures !(MatchesDuration(d, "1-5") && MatchesDuration(d, "10+"))
  {
  }

  // ---------------------------------------------------------------------
  // Locations

  /** `Array.from(new Set(xs))`: the values in order of first occurrence. */
  function Dedup(xs: seq<string>): (r: seq<string>)
    ensures Distinct(r)
    ensures forall x :: x in r <==> x in xs
  {
    if xs == [] then []
    else
      var init := Dedup(xs[..|xs| - 1]);
      assert forall x :: x in xs <==> x in xs[..|xs| - 1] || x == xs[|xs| - 1] by {
        assert xs == xs[..|xs| - 1] + [xs[|xs| - 1]];
      }
      if xs[|xs| - 1] in init then init else init + [xs[|xs| - 1]]
  }

  function LocationsOf(all: seq<Destination>): (r: seq<string>)
    ensures |r| == |all|
    ensures forall k :: 0 <= k < |all| ==> r[k] == all[k].location
  {
    seq(|all|, k requires 0 <= k < |all| => all[k].location)
  }

  lemma LexLeqTotalPreorder()
    ensures TotalPreorder(LexLeq)
  {
    forall a, b ensures LexLeq(a, b) || LexLeq(b, a) {
      LexLeqTotal(a, b);
    }
    forall a, b, c | LexLeq(a, b) && LexLeq(b, c) ensures LexLeq(a, c) {
      LexLeqTransitive(a, b, c);
    }
  }

  /** `locations`: each destination location once, in ascending order. */
  function Locations(all: seq<Destination>): (r: seq<string>)
    ensures forall x :: x in r <==> exists d :: d in all && d.location == x
    ensures forall i, j :: 0 <= i < j < |r| ==> LexLeq(r[i], r[j]) && r[i] != r[j]
  {
    var unique := Dedup(LocationsOf(all));
    var sorted := SortBy(unique, LexLeq);
    LexLeqTotalPreorder();
    SortBySorted(unique, LexLeq);
    PermutationDistinct(sorted, unique);
    assert forall x :: x in sorted <==> x in unique by {
      forall x ensures x in sorted <==> x in unique {
        assert x in sorted <==> x in multiset(sorted);
        assert x in unique <==> x in multiset(unique);
      }
    }
    assert forall x :: x in LocationsOf(all) <==> exists d :: d in all && d.location == x by {
      forall x ensures x in LocationsOf(all) <==> exists d :: d in all && d.location == x {
        if x in LocationsOf(all) {
          var k :| 0 <= k < |all| && LocationsOf(all)[k] == x;
          assert all[k] in all;
        }
        if exists d :: d in all && d.location == x {
          var d :| d in all && d.location == x;
          var k :| 0 <= k < |all| && all[k] == d;
          assert LocationsOf(all)[k] == x;
        }
      }
    }
    sorted
  }

  // ---------------------------------------------------------------------
  // Reset

  /** The filter state the page starts in: no search term, prices 0 to 2000,
      no duration bucket and no location. */
  const InitialFilters := Filters("", 0, 2000, "", "")

  /** `resetFilters`: every filter back to its initial value, whatever the
      state before. */
  function ResetFilters(f: Filters): (r: Filters)
    ensures r.searchTerm == "" && r.minPrice == 0 && r.maxPrice == 2000
    ensures r.duration == "" && r.location == ""
  {
    InitialFilters
  }

  /** After a reset a destination is shown exactly when its price lies in
      `[0, 2000]`. */
  lemma ResetShowsPriceRange(f: Filters, d: Destination)
    ensures Keep(d, ResetFilters(f)) <==> 0 <= d.price <= 2000
  {
    EmptySearchMatchesAll(d);
  }

  /** After a reset the page shows every destination priced in `[0, 2000]`,
      in the original order. */
  lemma {:induction false} ResetShowsAllInRange(all: seq<Destination>, f: Filters)
    requires forall d :: d in all ==> 0 <= d.price <= 2000
    ensures Filtered(all, ResetFilters(f)) == all
    decreases |all|
  {
    if all != [] {
      ResetShowsAllInRange(all[1..], f);
      ResetShowsPriceRange(f, all[0]);
      assert all == [all[0]] + all[1..];
    }
  }
}

=== FILE: js_parse.dfy ===
/** JavaScript's `parseInt` called without a radix, as the trip-planning
    page applies it to the traveler count and to the selected destination's
    id. */
module JsParse {
  import opened Wrappers
  import opened Text

  /** The white space `parseInt` skips: ECMAScript's WhiteSpace and
      LineTerminator characters. */
  predicate IsSpace(c: char)
  {
    c == ' ' || c == '\t' || c == '\n' || c == '\r' || c == '\U{000B}' || c == '\U{000C}' ||
    c == '\U{00A0}' || c == '\U{1680}' || '\U{2000}' <= c <= '\U{200A}' ||
    c == '\U{2028}' || c == '\U{2029}' || c == '\U{202F}' || c == '\U{205F}' ||
    c == '\U{3000}' || c == '\U{FEFF}'
  }

  /** The number of white-space characters `s` starts with. */
  function LeadingSpaces(s: string): (k: nat)
    ensures k <= |s|
    ensures forall j :: 0 <= j < k ==> IsSpace(s[j])
    ensures k < |s| ==> !IsSpace(s[k])
  {
    if s != [] && IsSpace(s[0]) then 1 + LeadingSpaces(s[1..]) else 0
  }

  /** The string without its leading white space: a suffix of `s` that
      starts with a non-space, preceded in `s` by white space only. */
  function TrimStart(s: string): (r: string)
    ensures |r| <= |s| && r == s[|s| - |r|..]
    ensures forall j :: 0 <= j < |s| - |r| ==> IsSpace(s[j])
    ensures r != [] ==> !IsSpace(r[0])
    ensures (s == [] || !IsSpace(s[0])) ==> r == s
  {
    var k := LeadingSpaces(s);
    s[k..]
  }

  /** The longest prefix of decimal digits. */
  function DigitPrefix(s: string): (p: string)
    ensures AllDigits(p) && p <= s
    ensures |p| < |s| ==> !IsDigit(s[|p|])
  {
    if s != [] && IsDigit(s[0]) then [s[0]] + DigitPrefix(s[1..]) else []
  }

  predicate IsHexDigit(c: char)
  {
    IsDigit(c) || 'a' <= c <= 'f' || 'A' <= c <= 'F'
  }

  predicate AllHexDigits(s: string)
  {
    forall i :: 0 <= i < |s| ==> IsHexDigit(s[i])
  }

  function HexDigitValue(c: char): (v: nat)
    requires IsHexDigit(c)
    ensures v < 16
  {
    if IsDigit(c) then c as int - '0' as int
    else if 'a' <= c <= 'f' then c as int - 'a' as int + 10
    else c as int - 'A' as int + 10
  }

  /** The value of a string of hexadecimal digits, most significant first. */
  function HexValue(s: string): nat
    requires AllHexDigits(s)
  {
    if s == [] then 0 else 16 * HexValue(s[..|s| - 1]) + HexDigitValue(s[|s| - 1])
  }

  /** The longest prefix of hexadecimal digits. */
  function HexPrefix(s: string): (p: string)
    ensures AllHexDigits(p) && p <= s
    ensures |p| < |s| ==> !IsHexDigit(s[|p|])
  {
    if s != [] && IsHexDigit(s[0]) then [s[0]] + HexPrefix(s[1..]) else []
  }

  /** `0x` or `0X`: with no radix given, `parseInt` then reads base 16. */
  predicate HasHexPrefix(s: string)
  {
    |s| >= 2 && s[0] == '0' && (s[1] == 'x' || s[1] == 'X')
  }

  /** The text after the optional sign. */
  function Unsigned(t: string): string
  {
    if t != [] && (t[0] == '-' || t[0] == '+') then t[1..] else t
  }

  /** `parseInt(s)` with no radix: leading white space, an optional sign,
      then either `0x`/`0X` and the longest run of hexadecimal digits, or the
      longest run of decimal digits; no digits gives `NaN` (`None`). */
  function ParseInt(s: string): (r: Option<int>)
    ensures r.None? <==> (var body := Unsigned(TrimStart(s));
                          if HasHexPrefix(body) then |body| == 2 || !IsHexDigit(body[2])
                          else body == [] || !IsDigit(body[0]))
  {
    var t := TrimStart(s);
    var negative := t != [] && t[0] == '-';
    var body := Unsigned(t);
    var hex := HasHexPrefix(body);
    var digits := if hex then HexPrefix(body[2..]) else DigitPrefix(body);
    if digits == [] then None
    else
      var magnitude := if hex then HexValue(digits) else DigitsValue(digits);
      if negative then Some(0 - magnitude) else Some(magnitude)
  }

  /** A string of digits is read back as the number it denotes. */
  lemma {:induction false} DigitPrefixOfDigits(s: string)
    requires AllDigits(s)
    ensures DigitPrefix(s) == s
    decreases |s|
  {
    if s != [] {
      DigitPrefixOfDigits(s[1..]);
      assert s == [s[0]] + s[1..];
    }
  }

  lemma ParseIntDecimal(n: nat)
    ensures ParseInt(Decimal(n)) == Some(n)
  {
    var s := Decimal(n);
    assert IsDigit(s[0]);
    assert TrimStart(s) == s;
    assert Unsigned(s) == s;
    assert !HasHexPrefix(s) by {
      if |s| >= 2 {
        assert IsDigit(s[1]);
      }
    }
    DigitPrefixOfDigits(s);
    DecimalRoundTrip(n);
  }

  lemma {:induction false} HexPrefixOfHexDigits(s: string)
    requires AllHexDigits(s)
    ensures HexPrefix(s) == s
    decreases |s|
  {
    if s != [] {
      HexPrefixOfHexDigits(s[1..]);
      assert s == [s[0]] + s[1..];
    }
  }

  lemma HexAfterPrefix(s: string, h: string)
    requires |s| == 2 + |h| && s[0] == '0' && (s[1] == 'x' || s[1] == 'X') && s[2..] == h
    requires h != [] && HexPrefix(h) == h
    ensures ParseInt(s) == Some(HexValue(h))
  {
    assert TrimStart(s) == s;
    assert Unsigned(s) == s;
  }

  /** After `0x`, a run of hexadecimal digits is read in base 16, so a
      traveler count such as `0x10` counts sixteen travelers. */
  lemma ParseIntHex(h: string)
    requires h != [] && AllHexDigits(h)
    ensures ParseInt("0x" + h) == Some(HexValue(h))
    ensures ParseInt("0X" + h) == Some(HexValue(h))
  {
    HexPrefixOfHexDigits(h);
    HexAfterPrefix("0x" + h, h);
    HexAfterPrefix("0X" + h, h);
  }
}

=== FILE: plan_trip.dfy ===
/** The trip-planning page: its activity tables, the itinerary it generates
    from them, the total price it derives from the traveler count, and the
    page state its handlers update. */
module PlanTrip {
  import opened Wrappers
  import opened Catalog
  import opened Text
  import opened JsParse
  import Random

  datatype ActivityType = Sightseeing | Culture | Food | Outdoor | Relaxation

  /** One `Record<ActivityType, string[]>`. */
  datatype Activities = Activities(
    sightseeing: seq<string>, culture: seq<string>, food: seq<string>,
    outdoor: seq<string>, relaxation: seq<string>)

  /** `destActivities[type]`. */
  function Category(table: Activities, kind: ActivityType): seq<string>
  {
    match kind
    case Sightseeing => table.sightseeing
    case Culture => table.culture
    case Food => table.food
    case Outdoor => table.outdoor
    case Relaxation => table.relaxation
  }

  predicate NonEmpty(table: Activities)
  {
    |table.sightseeing| > 0 && |table.culture| > 0 && |table.food| > 0 &&
    |table.outdoor| > 0 && |table.relaxation| > 0
  }

  const ParisSightseeing: seq<string> := ["Visit the Eiffel Tower", "Explore the Louvre Museum", "See Notre Dame Cathedral", "Walk along the Champs-Élysées", "Visit Arc de Triomphe"]
  const ParisCulture: seq<string> := ["Attend an opera at Palais Garnier", "Visit Musée d'Orsay", "Explore Montmartre", "Visit Centre Pompidou"]
  const ParisFood: seq<string> := ["Enjoy a pastry at a local café", "Wine tasting experience", "Dine at a traditional French bistro", "Visit a local farmers market"]
  const ParisOutdoor: seq<string> := ["Picnic in Luxembourg Gardens", "Take a boat tour on the Seine River", "Stroll through Tuileries Garden", "Bike tour of the city"]
  const ParisRelaxation: seq<string> := ["Relax at a Parisian spa", "People-watch at a sidewalk café", "Shop at Galeries Lafayette", "Unwind at Parc des Buttes-Chaumont"]

  const TokyoSightseeing: seq<string> := ["Visit Tokyo Skytree", "Explore Senso-ji Temple", "See Imperial Palace", "Visit Tokyo Tower", "Explore Shibuya Crossing"]
  const TokyoCulture: seq<string> := ["Watch a sumo wrestling match", "Visit Edo-Tokyo Museum", "Experience a traditional tea ceremony", "Visit Ghibli Museum"]
  const TokyoFood: seq<string> := ["Eat at a conveyor belt sushi restaurant", "Explore Tsukiji Outer Market", "Try ramen at a local shop", "Visit a Japanese izakaya"]
  const TokyoOutdoor: seq<string> := ["Stroll through Ueno Park", "Visit Meiji Shrine gardens", "Explore Hamarikyu Gardens", "Day trip to Mount Fuji"]
  const TokyoRelaxation: seq<string> := ["Experience an onsen bath", "Shop in Ginza district", "Relax in a manga café", "Visit an animal café"]

  const GenericSightseeing: seq<string> := ["Visit the main tourist attractions", "Explore historic landmarks", "Tour the city center", "Visit local museums", "See famous architecture"]
  const GenericCulture: seq<string> := ["Attend a local performance", "Visit art galleries", "Explore cultural districts", "Learn about local traditions", "Visit heritage sites"]
  const GenericFood: seq<string> := ["Try authentic local cuisine", "Visit food markets", "Dine at popular restaurants", "Take a cooking class", "Enjoy street food tour"]
  const GenericOutdoor: seq<string> := ["Explore local parks", "Take a guided city tour", "Visit nearby natural attractions", "Enjoy outdoor recreational activities", "Take photographs of scenic views"]
  const GenericRelaxation: seq<string> := ["Relax at a local spa", "Shopping at local boutiques", "Enjoy café culture", "Free time for personal exploration", "Visit local entertainment venues"]

  const ParisActivities := Activities(ParisSightseeing, ParisCulture, ParisFood, ParisOutdoor, ParisRelaxation)
  const TokyoActivities := Activities(TokyoSightseeing, TokyoCulture, TokyoFood, TokyoOutdoor, TokyoRelaxation)
  const GenericActivities := Activities(GenericSightseeing, GenericCulture, GenericFood, GenericOutdoor, GenericRelaxation)

  /** `destinationActivities[name] || genericActivities`: the table keyed by
      the destination's name, the generic one for any other name; every
      category of the chosen table is non-empty. */
  function TableFor(name: string): (table: Activities)
    ensures NonEmpty(table)
    ensures name == "Paris" ==> table == ParisActivities
    ensures name == "Tokyo" ==> table == TokyoActivities
    ensures name != "Paris" && name != "Tokyo" ==> table == GenericActivities
  {
    if name == "Paris" then ParisActivities
    else if name == "Tokyo" then TokyoActivities
    else GenericActivities
  }

  /** `Math.random() > 0.5 ? 'sightseeing' : 'culture'` and the other two coins. */
  function MorningType(r: real): ActivityType { if Random.Heads(r) then Sightseeing else Culture }
  function AfternoonType(r: real): ActivityType { if Random.Heads(r) then Food else Outdoor }
  function EveningType(r: real): ActivityType { if Random.Heads(r) then Food else Relaxation }

  /** `activities[Math.floor(Math.random() * activities.length)]`. */
  function Pick(activities: seq<string>, r: real): (a: string)
    requires |activities| > 0 && 0.0 <= r < 1.0
    ensures a in activities
  {
    activities[Random.PickIndex(r, |activities|)]
  }

  /** Day `i` of a generated itinerary. Each day uses six draws in the order
      the loop body makes them: a coin for the morning category, an index
      into it, then the same for the afternoon and the evening. The morning
      activity is a sightseeing or culture one, the afternoon one a food or
      outdoor one, the evening one a food or relaxation one. */
  function PlannedDay(table: Activities, random: nat -> real, i: nat): (day: seq<string>)
    requires NonEmpty(table) && Random.UnitInterval(random)
    ensures |day| == 3
    ensures day[0] in table.sightseeing || day[0] in table.culture
    ensures day[1] in table.food || day[1] in table.outdoor
    ensures day[2] in table.food || day[2] in table.relaxation
  {
    var morning := Category(table, MorningType(random(6 * i)));
    var afternoon := Category(table, AfternoonType(random(6 * i + 2)));
    var evening := Category(table, EveningType(random(6 * i + 4)));
    [ Pick(morning, random(6 * i + 1)),
      Pick(afternoon, random(6 * i + 3)),
      Pick(evening, random(6 * i + 5)) ]
  }

  /** The `for` loop of `generateItinerary`: one `PlannedDay` per day of the
      destination's duration, in day order. */
  method BuildItinerary(table: Activities, duration: int, random: nat -> real)
    returns (itinerary: seq<seq<string>>)
    requires NonEmpty(table) && Random.UnitInterval(random)
    ensures |itinerary| == DayCount(duration)
    ensures forall i :: 0 <= i < |itinerary| ==> itinerary[i] == PlannedDay(table, random, i)
  {
    itinerary := [];
    var i := 0;
    while i < duration
      invariant 0 <= i <= DayCount(duration)
      invariant |itinerary| == i
      invariant forall k :: 0 <= k < i ==> itinerary[k] == PlannedDay(table, random, k)
    {
      var dayActivities: seq<string> := [];
      var morningActivities := Category(table, MorningType(random(6 * i)));
      dayActivities := dayActivities + [Pick(morningActivities, random(6 * i + 1))];
      var afternoonActivities := Category(table, AfternoonType(random(6 * i + 2)));
      dayActivities := dayActivities + [Pick(afternoonActivities, random(6 * i + 3))];
      var eveningActivities := Category(table, EveningType(random(6 * i + 4)));
      dayActivities := dayActivities + [Pick(eveningActivities, random(6 * i + 5))];
      assert dayActivities == PlannedDay(table, random, i);
      itinerary := itinerary + [dayActivities];
      i := i + 1;
    }
  }

  /** Every generated day has three activities, and for a destination with
      no table of its own they come from the generic lists. */
  lemma GenericDaySlots(name: string, random: nat -> real, i: nat)
    requires name != "Paris" && name != "Tokyo" && Random.UnitInterval(random)
    ensures var day := PlannedDay(TableFor(name), random, i);
            (day[0] in GenericSightseeing || day[0] in GenericCulture) &&
            (day[1] in GenericFood || day[1] in GenericOutdoor) &&
            (day[2] in GenericFood || day[2] in GenericRelaxation)
  {
  }

  // ---------------------------------------------------------------------
  // Total price

  /** A JavaScript number as far as the page uses it: an integer or `NaN`. */
  datatype Price = Num(value: int) | NaN

  /** `selectedDestination.price * parseInt(travelers || '1')`. */
  function TotalPrice(price: int, travelers: string): Price
  {
    match ParseInt(if travelers == "" then "1" else travelers)
    case Some(n) => Num(price * n)
    case None => NaN
  }

  /** An empty traveler count counts as one traveler; any other count is
      parsed, and the total is `NaN` exactly when the parse gives `NaN`. */
  lemma TotalPriceParses(price: int, travelers: string)
    ensures travelers == "" ==> TotalPrice(price, travelers) == Num(price)
    ensures TotalPrice(price, travelers) == NaN <==> travelers != "" && ParseInt(travelers) == None
    ensures travelers != "" && ParseInt(travelers).Some? ==>
              TotalPrice(price, travelers) == Num(price * ParseInt(travelers).value)
  {
    ParseIntDecimal(1);
    assert Decimal(1) == "1";
  }

  /** The total for `n` travelers chosen as the decimal string of `n` is the
      per-person price times `n`; an empty traveler count counts as one. */
  lemma TotalPriceOfCount(price: int, n: nat)
    ensures TotalPrice(price, Decimal(n)) == Num(price * n)
    ensures TotalPrice(price, "") == Num(price)
  {
    ParseIntDecimal(n);
    ParseIntDecimal(1);
    assert Decimal(1) == "1";
  }

  /** A traveler count with no leading digit gives a `NaN` total. */
  lemma TotalPriceNotANumber(price: int, travelers: string)
    requires travelers != [] && !IsSpace(travelers[0]) && !IsDigit(travelers[0])
    requires travelers[0] != '-' && travelers[0] != '+'
    ensures TotalPrice(price, travelers) == NaN
  {
  }

  // ---------------------------------------------------------------------
  // Destination lookup

  /** `data.find(d => d.id === id)`: the first destination with that id;
      `NaN` matches none. */
  function FindById(destinations: seq<Destination>, id: Option<int>): (r: Option<Destination>)
    ensures r.Some? ==> r.value in destinations && id == Some(r.value.id)
    ensures r.None? <==> forall d :: d in destinations ==> id != Some(d.id)
    ensures r.Some? ==> exists k :: 0 <= k < |destinations| && destinations[k] == r.value &&
                           forall j :: 0 <= j < k ==> id != Some(destinations[j].id)
  {
    if destinations == [] then None
    else if id == Some(destinations[0].id) then Some(destinations[0])
    else
      var rest := FindById(destinations[1..], id);
      assert forall d :: d in destinations[1..] ==> d in destinations;
      assert rest.Some? ==> forall k :: 0 <= k < |destinations[1..]| ==> destinations[1..][k] == destinations[k + 1];
      rest
  }

  // ---------------------------------------------------------------------
  // Page state

  class PlanTripPage {
    var selected: Option<Destination>
    var date: Option<string>
    var travelers: string
    var itinerary: seq<seq<string>>
    var totalPrice: Price
    var currentTab: string
    var showReservation: bool

    /** The initial state of the page's hooks. */
    constructor ()
      ensures selected == None && date == None && travelers == "2" && itinerary == []
      ensures totalPrice == Num(0) && currentTab == "details" && !showReservation
    {
      selected, date, travelers, itinerary := None, None, "2", [];
      totalPrice, currentTab, showReservation := Num(0), "details", false;
    }

    /** The effect on `[selectedDestination, travelers]`. */
    method RefreshTotal()
      modifies this
      ensures selected.Some? ==> totalPrice == TotalPrice(selected.value.price, travelers)
      ensures selected.None? ==> totalPrice == old(totalPrice)
      ensures selected == old(selected) && date == old(date) && travelers == old(travelers)
      ensures itinerary == old(itinerary) && currentTab == old(currentTab)
      ensures showReservation == old(showReservation)
    {
      if selected.Some? {
        totalPrice := TotalPrice(selected.value.price, travelers);
      }
    }

    /** `handleDestinationChange`: once the destinations are loaded, select the
        one whose id `value` parses to (or none), clear the itinerary, and
        recompute the total. */
    method ChangeDestination(destinations: Option<seq<Destination>>, value: string)
      modifies this
      ensures destinations.None? ==>
                selected == old(selected) && itinerary == old(itinerary) && totalPrice == old(totalPrice)
      ensures destinations.Some? ==>
                selected == FindById(destinations.value, ParseInt(value)) && itinerary == []
      ensures destinations.Some? && selected.Some? ==> totalPrice == TotalPrice(selected.value.price, travelers)
      ensures destinations.Some? && selected.None? ==> totalPrice == old(totalPrice)
      ensures date == old(date) && travelers == old(travelers)
      ensures currentTab == old(currentTab) && showReservation == old(showReservation)
    {
      if destinations.Some? {
        var found := FindById(destinations.value, ParseInt(value));
        selected := found;
        itinerary := [];
        RefreshTotal();
        assert selected == found;
      }
    }

    /** `handleTravelersChange`, followed by the total's effect. */
    method ChangeTravelers(value: string)
      modifies this
      ensures travelers == value
      ensures selected.Some? ==> totalPrice == TotalPrice(selected.value.price, value)
      ensures selected.None? ==> totalPrice == old(totalPrice)
      ensures selected == old(selected) && date == old(date) && itinerary == old(itinerary)
      ensures currentTab == old(currentTab) && showReservation == old(showReservation)
    {
      travelers := value;
      RefreshTotal();
    }

    /** `handleDateChange`. */
    method ChangeDate(newDate: Option<string>)
      modifies this
      ensures date == newDate
      ensures selected == old(selected) && travelers == old(travelers) && itinerary == old(itinerary)
      ensures totalPrice == old(totalPrice) && currentTab == old(currentTab)
      ensures showReservation == old(showReservation)
    {
      date := newDate;
    }

    /** `generateItinerary`: without a destination or a date nothing changes;
        otherwise the itinerary becomes one planned day per day of the
        destination's duration and the itinerary tab opens. */
    method GenerateItinerary(random: nat -> real)
      requires Random.UnitInterval(random)
      modifies this
      ensures old(selected).None? || old(date).None? ==> unchanged(this)
      ensures old(selected).Some? && old(date).Some? ==>
                |itinerary| == DayCount(old(selected).value.duration) &&
                (forall i :: 0 <= i < |itinerary| ==>
                   itinerary[i] == PlannedDay(TableFor(old(selected).value.name), random, i)) &&
                currentTab == "itinerary"
      ensures selected == old(selected) && date == old(date) && travelers == old(travelers)
      ensures totalPrice == old(totalPrice) && showReservation == old(showReservation)
    {
      if selected.None? || date.None? {
        return;
      }
      var destination := selected.value;
      var table := TableFor(destination.name);
      itinerary := BuildItinerary(table, destination.duration, random);
      currentTab := "itinerary";
    }

    /** `handleContinue`: with a destination, a date and a non-empty traveler
        count, generate an itinerary if there is none yet, then show the
        reservation tab; otherwise nothing changes. */
    method Continue(random: nat -> real)
      requires Random.UnitInterval(random)
      modifies this
      ensures old(selected).None? || old(date).None? || old(travelers) == "" ==> unchanged(this)
      ensures old(selected).Some? && old(date).Some? && old(travelers) != "" ==>
                showReservation && currentTab == "reservation" &&
                (old(itinerary) != [] ==> itinerary == old(itinerary)) &&
                (old(itinerary) == [] ==>
                   |itinerary| == DayCount(old(selected).value.duration) &&
                   forall i :: 0 <= i < |itinerary| ==>
                     itinerary[i] == PlannedDay(TableFor(old(selected).value.name), random, i))
      ensures selected == old(selected) && date == old(date) && travelers == old(travelers)
      ensures totalPrice == old(totalPrice)
    {
      if selected.None? || date.None? || travelers == "" {
        return;
      }
      if |itinerary| == 0 {
        GenerateItinerary(random);
      }
      showReservation := true;
      currentTab := "reservation";
    }
  }
}

=== FILE: random.dfy ===
/** `Math.random()` as an injected oracle: draw number `k` of a run is
    `random(k)`, a real in [0, 1). Every list index the front end derives from
    a draw is `Math.floor(Math.random() * length)`. */
module Random {

  /** Every draw lies in [0, 1), as `Math.random` promises. */
  ghost predicate UnitInterval(random: nat -> real)
  {
    forall k :: 0.0 <= random(k) < 1.0
  }

  /** `Math.floor(r * n)`: a valid index into a list of `n` elements. */
  function PickIndex(r: real, n: nat): (k: nat)
    requires 0.0 <= r < 1.0 && n > 0
    ensures k < n
  {
    var x := r * n as real;
    assert 0.0 <= x < n as real by {
      assert r * n as real < 1.0 * n as real;
    }
    x.Floor
  }

  /** Every index can be drawn: the draw `k / n` picks index `k`. */
  lemma PickIndexCovers(k: nat, n: nat)
    requires k < n
    ensures 0.0 <= k as real / n as real < 1.0
    ensures PickIndex(k as real / n as real, n) == k
  {
    var r := k as real / n as real;
    assert r * n as real == k as real;
  }

  /** `Math.random() > 0.5`: the coin that chooses between two categories. */
  predicate Heads(r: real)
  {
    r > 0.5
  }
}

=== FILE: reservations.dfy ===
/** `GET /user/reservations?userId=`: the user's reservations joined with their
    travel plan, newest travel date first, each with its itinerary as
    `[morning, afternoon, evening]` triples in day order. The two SQL queries
    are modelled as functions over the tables; `Listing` is the response. */
module ReservationQueries {
  import opened Wrappers
  import opened Schema
  import opened Text
  import opened Sorting
  import Booking

  datatype ListRequest = ListRequest(userId: Field<int>)

  datatype DestinationSummary = DestinationSummary(
    id: int, name: string, location: string, image: string, duration: int)

  datatype ReservationView = ReservationView(
    id: int, destination: DestinationSummary, date: string, people: int,
    totalPrice: int, status: string, bookingReference: string,
    itinerary: seq<seq<string>>)

  const UserIdRequired := "User ID is required"

  /** One row of `reservations r JOIN travel_plans tp ON r.travel_plan_id = tp.id`. */
  datatype Joined = Joined(res: Reservation, plan: TravelPlan)

  /** The join restricted to `r.user_id = uid`, in table order. A reservation
      whose plan is missing has no partner and yields no row. */
  function JoinRows(rs: seq<Reservation>, plans: seq<TravelPlan>, uid: int): (r: seq<Joined>)
    ensures |r| <= |rs|
    ensures forall j :: j in r ==> j.res in rs && j.res.userId == uid && j.plan in plans &&
                                   j.plan.id == j.res.travelPlanId
  {
    if rs == [] then []
    else
      assert rs == [rs[0]] + rs[1..];
      JoinOne(rs[0], plans, uid) + JoinRows(rs[1..], plans, uid)
  }

  /** The joined row one reservation contributes: none when it belongs to
      another user or its plan is missing. */
  function JoinOne(x: Reservation, plans: seq<TravelPlan>, uid: int): seq<Joined>
  {
    match PlanById(plans, x.travelPlanId)
    case Some(p) => if x.userId == uid then [Joined(x, p)] else []
    case None => []
  }

  /** `ORDER BY r.travel_date DESC`, as a "comes no later in the output" relation. */
  predicate LaterOrSameDate(a: Joined, b: Joined)
  {
    LexLeq(b.res.travelDate, a.res.travelDate)
  }

  /** `ORDER BY day_number`. */
  predicate EarlierOrSameDay(a: ItineraryRow, b: ItineraryRow)
  {
    a.dayNumber <= b.dayNumber
  }

  /** The rows the outer query returns for `uid`. */
  function UserRows(t: Tables, uid: int): (r: seq<Joined>)
    ensures multiset(r) == multiset(JoinRows(t.reservations, t.plans, uid))
    ensures forall i, k :: 0 <= i < k < |r| ==> LexLeq(r[k].res.travelDate, r[i].res.travelDate)
  {
    DatesTotalPreorder();
    SortBySorted(JoinRows(t.reservations, t.plans, uid), LaterOrSameDate);
    SortBy(JoinRows(t.reservations, t.plans, uid), LaterOrSameDate)
  }

  /** The rows the inner query returns for reservation `rid`. */
  function DayRowsOf(t: Tables, rid: int): seq<ItineraryRow>
  {
    SortBy(ItineraryRowsOf(t.itineraries, rid), EarlierOrSameDay)
  }

  function Triple(row: ItineraryRow): seq<string>
  {
    [row.morning, row.afternoon, row.evening]
  }

  function Triples(rows: seq<ItineraryRow>): seq<seq<string>>
  {
    seq(|rows|, i requires 0 <= i < |rows| => Triple(rows[i]))
  }

  /** `"TP-" . (100000 + $row['id'])`. */
  function ReservationReference(id: int): string
  {
    "TP-" + IntDecimal(100000 + id)
  }

  /** For a reservation id `i >= 0` the reference is "TP-" followed by the
      digits of `100000 + i`. */
  lemma ReservationReferenceFormat(id: int)
    requires id >= 0
    ensures var r := ReservationReference(id);
            r[..3] == "TP-" && AllDigits(r[3..]) && DigitsValue(r[3..]) == 100000 + id
  {
    DecimalRoundTrip(100000 + id);
    assert ReservationReference(id)[3..] == Decimal(100000 + id);
  }

  function View(j: Joined, itinerary: seq<seq<string>>): ReservationView
  {
    ReservationView(
      j.res.id,
      DestinationSummary(j.plan.id, j.plan.title, j.plan.location, j.plan.imageUrl, j.plan.duration),
      j.res.travelDate, j.res.numPeople, j.res.totalPrice, j.res.status,
      ReservationReference(j.res.id), itinerary)
  }

  /** The itinerary of reservation `rid` as the endpoint reports it. */
  function ItineraryOf(t: Tables, rid: int): seq<seq<string>>
  {
    Triples(DayRowsOf(t, rid))
  }

  /** The response of the endpoint for the given tables. */
  function Listing(t: Tables, m: HttpMethod, req: ListRequest): (r: Response<seq<ReservationView>>)
    ensures m != Get ==> r == Failure(InvalidMethod)
    ensures m == Get ==> (r.Failure? <==> EmptyInt(req.userId))
    ensures r.Failure? ==> r.message == InvalidMethod || r.message == UserIdRequired
  {
    if m != Get then Failure(InvalidMethod)
    else if EmptyInt(req.userId) then Failure(UserIdRequired)
    else
      var rows := UserRows(t, req.userId.value);
      Success("", seq(|rows|, i requires 0 <= i < |rows| => ViewOf(t, rows[i])))
  }

  /** The listing is determined row by row: any sequence holding, at each
      position, the view of the outer query's row there is the listing. */
  lemma ListingByRows(t: Tables, req: ListRequest, views: seq<ReservationView>)
    requires !EmptyInt(req.userId)
    requires |views| == |UserRows(t, req.userId.value)|
    requires forall k :: 0 <= k < |views| ==> views[k] == ViewOf(t, UserRows(t, req.userId.value)[k])
    ensures Listing(t, Get, req) == Success("", views)
  {
    var rows := UserRows(t, req.userId.value);
    var listed := Listing(t, Get, req).data;
    assert listed == seq(|rows|, i requires 0 <= i < |rows| => ViewOf(t, rows[i]));
    assert forall k :: 0 <= k < |views| ==> listed[k] == views[k];
    assert listed == views;
    assert Listing(t, Get, req) == Success("", listed);
  }

  /** One outer row with the itinerary its reservation has in the tables. */
  function ViewOf(t: Tables, j: Joined): ReservationView {
    View(j, ItineraryOf(t, j.res.id))
  }

  lemma {:induction false} JoinRowsMembership(rs: seq<Reservation>, plans: seq<TravelPlan>, uid: int, j: Joined)
    ensures j in JoinRows(rs, plans, uid) <==>
            j.res in rs && j.res.userId == uid && PlanById(plans, j.res.travelPlanId) == Some(j.plan)
  {
    if rs != [] {
      JoinRowsMembership(rs[1..], plans, uid, j);
      assert rs == [rs[0]] + rs[1..];
    }
  }

  /** Each reservation of the user whose plan exists yields exactly as many
      joined rows as the table holds copies of it, and every other pairing
      yields none; in particular, distinct reservations give distinct rows. */
  lemma {:induction false} JoinRowsCounts(rs: seq<Reservation>, plans: seq<TravelPlan>, uid: int, j: Joined)
    ensures multiset(JoinRows(rs, plans, uid))[j] ==
              if j.res.userId == uid && PlanById(plans, j.res.travelPlanId) == Some(j.plan)
              then multiset(rs)[j.res] else 0
  {
    if rs != [] {
      var x := rs[0];
      var head := JoinOne(x, plans, uid);
      var rest := JoinRows(rs[1..], plans, uid);
      JoinOneCount(x, plans, uid, j);
      JoinRowsCounts(rs[1..], plans, uid, j);
      assert rs == [x] + rs[1..];
      assert multiset(rs) == multiset{x} + multiset(rs[1..]);
      assert multiset(head + rest) == multiset(head) + multiset(rest);
    }
  }

  lemma JoinOneCount(x: Reservation, plans: seq<TravelPlan>, uid: int, j: Joined)
    ensures multiset(JoinOne(x, plans, uid))[j] ==
              if j.res == x && j.res.userId == uid && PlanById(plans, j.res.travelPlanId) == Some(j.plan)
              then 1 else 0
  {
  }

  lemma DatesTotalPreorder()
    ensures TotalPreorder(LaterOrSameDate)
  {
    forall a: Joined, b: Joined ensures LaterOrSameDate(a, b) || LaterOrSameDate(b, a) {
      LexLeqTotal(a.res.travelDate, b.res.travelDate);
    }
    forall a: Joined, b: Joined, c: Joined | LaterOrSameDate(a, b) && LaterOrSameDate(b, c)
      ensures LaterOrSameDate(a, c)
    {
      LexLeqTransitive(c.res.travelDate, b.res.travelDate, a.res.travelDate);
    }
  }

  /** Every listed reservation belongs to the requested user, and its fields
      are those of a row of `reservations`. */
  lemma ListingOnlyOwner(t: Tables, req: ListRequest)
    requires !EmptyInt(req.userId)
    ensures var r := Listing(t, Get, req);
            r.Success? &&
            forall v :: v in r.data ==>
              exists x :: x in t.reservations && x.id == v.id && x.userId == req.userId.value &&
                          x.travelDate == v.date && x.numPeople == v.people &&
                          x.totalPrice == v.totalPrice && x.status == v.status
  {
    var uid := req.userId.value;
    var data := Listing(t, Get, req).data;
    forall v | v in data
      ensures exists x :: x in t.reservations && x.id == v.id && x.userId == uid &&
                          x.travelDate == v.date && x.numPeople == v.people &&
                          x.totalPrice == v.totalPrice && x.status == v.status
    {
      var i :| 0 <= i < |data| && data[i] == v;
      ListedRow(t, req, i);
    }
  }

  /** The list is ordered by travel date, latest first. */
  lemma ListingNewestFirst(t: Tables, req: ListRequest)
    requires !EmptyInt(req.userId)
    ensures var r := Listing(t, Get, req);
            r.Success? &&
            forall i, j :: 0 <= i < j < |r.data| ==> LexLeq(r.data[j].date, r.data[i].date)
  {
    DatesTotalPreorder();
    SortBySorted(JoinRows(t.reservations, t.plans, req.userId.value), LaterOrSameDate);
  }

  /** The i-th listed reservation comes from a joined row of the user. */
  lemma ListedRow(t: Tables, req: ListRequest, i: int)
    requires !EmptyInt(req.userId)
    requires 0 <= i < |Listing(t, Get, req).data|
    ensures var j := UserRows(t, req.userId.value)[i];
            j.res in t.reservations && j.res.userId == req.userId.value &&
            PlanById(t.plans, j.res.travelPlanId) == Some(j.plan) &&
            Listing(t, Get, req).data[i].id == j.res.id &&
            Listing(t, Get, req).data[i].destination ==
              DestinationSummary(j.plan.id, j.plan.title, j.plan.location, j.plan.imageUrl, j.plan.duration) &&
            Listing(t, Get, req).data[i].bookingReference == ReservationReference(j.res.id) &&
            Listing(t, Get, req).data[i].itinerary == ItineraryOf(t, j.res.id)
  {
    var uid := req.userId.value;
    var j := UserRows(t, uid)[i];
    assert j in multiset(JoinRows(t.reservations, t.plans, uid));
    JoinRowsMembership(t.reservations, t.plans, uid, j);
  }

  /** A reservation of the user whose travel plan exists is listed. */
  lemma ListingIncludes(t: Tables, req: ListRequest, x: Reservation)
    requires !EmptyInt(req.userId)
    requires x in t.reservations && x.userId == req.userId.value
    requires PlanById(t.plans, x.travelPlanId).Some?
    ensures var r := Listing(t, Get, req);
            r.Success? && exists v :: v in r.data && v.id == x.id
  {
    var uid := req.userId.value;
    var rows := UserRows(t, uid);
    var p := PlanById(t.plans, x.travelPlanId).value;
    JoinRowsMembership(t.reservations, t.plans, uid, Joined(x, p));
    assert Joined(x, p) in multiset(rows);
    var i :| 0 <= i < |rows| && rows[i] == Joined(x, p);
    assert |Listing(t, Get, req).data| == |rows|;
    ListedRow(t, req, i);
  }

  /** A reservation whose travel plan is missing is not listed (inner join). */
  lemma ListingOmitsOrphans(t: Tables, req: ListRequest, x: Reservation)
    requires Valid(t) && !EmptyInt(req.userId)
    requires x in t.reservations
    requires PlanById(t.plans, x.travelPlanId).None?
    ensures var r := Listing(t, Get, req);
            r.Success? && forall v :: v in r.data ==> v.id != x.id
  {
    var data := Listing(t, Get, req).data;
    forall v | v in data ensures v.id != x.id {
      var i :| 0 <= i < |data| && data[i] == v;
      ListedRow(t, req, i);
      var j := UserRows(t, req.userId.value)[i];
      if v.id == x.id {
        SameIdSameReservation(t, j.res, x);
      }
    }
  }

  lemma SameIdSameReservation(t: Tables, a: Reservation, b: Reservation)
    requires Valid(t) && a in t.reservations && b in t.reservations && a.id == b.id
    ensures a == b
  {
  }

  /** A user without reservations gets success and an empty list. */
  lemma ListingEmpty(t: Tables, req: ListRequest)
    requires !EmptyInt(req.userId)
    requires forall x :: x in t.reservations ==> x.userId != req.userId.value
    ensures Listing(t, Get, req) == Success("", [])
  {
    var uid := req.userId.value;
    var joined := JoinRows(t.reservations, t.plans, uid);
    assert joined == [] by {
      if joined != [] {
        JoinRowsMembership(t.reservations, t.plans, uid, joined[0]);
        assert false;
      }
    }
    assert UserRows(t, uid) == [];
    assert |Listing(t, Get, req).data| == 0;
  }

  /** The itinerary of a reservation lists exactly its itinerary rows, in
      ascending day number, each as its `[morning, afternoon, evening]` triple. */
  lemma ItineraryInDayOrder(t: Tables, rid: int)
    ensures var rows := DayRowsOf(t, rid);
            multiset(rows) == multiset(ItineraryRowsOf(t.itineraries, rid)) &&
            (forall i, j :: 0 <= i < j < |rows| ==> rows[i].dayNumber <= rows[j].dayNumber) &&
            |ItineraryOf(t, rid)| == |rows| &&
            forall k :: 0 <= k < |rows| ==>
              ItineraryOf(t, rid)[k] == [rows[k].morning, rows[k].afternoon, rows[k].evening]
  {
    assert TotalPreorder(EarlierOrSameDay);
    SortBySorted(ItineraryRowsOf(t.itineraries, rid), EarlierOrSameDay);
  }

  /** The itinerary rows of a booked reservation come back in day order. */
  lemma DayRowsInOrder(id: int, days: seq<seq<string>>)
    ensures SortedBy(Booking.DayRows(id, days), EarlierOrSameDay)
  {
  }

  /** Booking and then listing the booking user's reservations shows the new
      reservation with the booked date, party size, price and status, and its
      itinerary as the submitted days padded to three slots, in day order. */
  lemma BookThenList(t: Tables, req: Booking.BookRequest, fault: Booking.Fault, draw: int)
    requires Valid(t)
    requires Booking.Book(t, Post, req, fault, draw).1.Success?
    requires PlanById(t.plans, req.destinationId.value).Some?
    ensures var t' := Booking.Book(t, Post, req, fault, draw).0;
            var days := Booking.DaysOf(req.itinerary);
            var r := Listing(t', Get, ListRequest(req.userId));
            r.Success? &&
            exists v :: v in r.data && v.id == t.nextReservationId &&
                        v.date == req.travelDate.value && v.people == req.travelers.value &&
                        v.totalPrice == req.totalPrice.value && v.status == Confirmed &&
                        v.destination.id == req.destinationId.value &&
                        v.bookingReference == ReservationReference(t.nextReservationId) &&
                        |v.itinerary| == |days| &&
                        forall k :: 0 <= k < |days| ==> v.itinerary[k] == Booking.Padded(days[k])
  {
    ListAfterBooking(t, req, Booking.Book(t, Post, req, fault, draw).0);
  }

  /** The read-back half of `BookThenList`, for any tables that hold the
      booked reservation row and day rows. */
  lemma ListAfterBooking(t: Tables, req: Booking.BookRequest, t': Tables)
    requires Valid(t) && Booking.Complete(req)
    requires PlanById(t.plans, req.destinationId.value).Some?
    requires t'.plans == t.plans
    requires t'.reservations == t.reservations + [Booking.NewReservation(t, req)]
    requires t'.itineraries == t.itineraries + Booking.DayRows(t.nextReservationId, Booking.DaysOf(req.itinerary))
    ensures var days := Booking.DaysOf(req.itinerary);
            var r := Listing(t', Get, ListRequest(req.userId));
            r.Success? &&
            exists v :: v in r.data && v.id == t.nextReservationId &&
                        v.date == req.travelDate.value && v.people == req.travelers.value &&
                        v.totalPrice == req.totalPrice.value && v.status == Confirmed &&
                        v.destination.id == req.destinationId.value &&
                        v.bookingReference == ReservationReference(t.nextReservationId) &&
                        |v.itinerary| == |days| &&
                        forall k :: 0 <= k < |days| ==> v.itinerary[k] == Booking.Padded(days[k])
  {
    var x := Booking.NewReservation(t, req);
    var p := PlanById(t.plans, req.destinationId.value).value;
    BookedRowJoined(t, req, t');
    var rows := UserRows(t', req.userId.value);
    var i :| 0 <= i < |rows| && rows[i] == Joined(x, p);
    ReadBackDays(t, Booking.DaysOf(req.itinerary), t');
    var v := Listing(t', Get, ListRequest(req.userId)).data[i];
    assert v == ViewOf(t', Joined(x, p));
  }

  /** The booked reservation, joined with its plan, is one of its user's rows. */
  lemma BookedRowJoined(t: Tables, req: Booking.BookRequest, t': Tables)
    requires Booking.Complete(req)
    requires PlanById(t.plans, req.destinationId.value).Some?
    requires t'.plans == t.plans
    requires t'.reservations == t.reservations + [Booking.NewReservation(t, req)]
    ensures Joined(Booking.NewReservation(t, req), PlanById(t.plans, req.destinationId.value).value)
              in UserRows(t', req.userId.value)
  {
    var x := Booking.NewReservation(t, req);
    var p := PlanById(t.plans, req.destinationId.value).value;
    assert x in t'.reservations;
    JoinRowsMembership(t'.reservations, t'.plans, req.userId.value, Joined(x, p));
    assert Joined(x, p) in multiset(UserRows(t', req.userId.value));
  }

  /** Reading back the itinerary of a freshly booked reservation gives the
      submitted days, padded to three slots, in day order. */
  lemma ReadBackDays(t: Tables, days: seq<seq<string>>, t': Tables)
    requires Valid(t)
    requires t'.itineraries == t.itineraries + Booking.DayRows(t.nextReservationId, days)
    ensures var it := ItineraryOf(t', t.nextReservationId);
            |it| == |days| && forall k :: 0 <= k < |days| ==> it[k] == Booking.Padded(days[k])
  {
    var id := t.nextReservationId;
    Booking.BookedRowsOf(t, days);
    DayRowsInOrder(id, days);
    SortByOfSorted(Booking.DayRows(id, days), EarlierOrSameDay);
    assert DayRowsOf(t', id) == Booking.DayRows(id, days);
    Booking.DayRowsShape(id, days);
  }

}

=== FILE: schema.dfy ===
/** The relational schema the PHP endpoints work on, held in memory: the
    `users`, `travel_plans`, `reservations` and `itineraries` tables and the
    auto-increment counters behind `lastInsertId`; the JSON request fields as
    PHP sees them; the `{success, message|data}` envelope; and the PHP library
    functions the endpoints call but whose code is not part of this model. */
module Schema {
  import opened Wrappers

  datatype HttpMethod = Get | Post | OtherMethod(name: string)

  /** A field of a decoded JSON body or query string: absent (or null), or given. */
  datatype Field<T> = Absent | Given(value: T)

  /** PHP `empty` on a number: a missing field and 0 are empty. */
  predicate EmptyInt(f: Field<int>) { f.Absent? || f.value == 0 }

  /** PHP `empty` on a string: a missing field, "" and "0" are empty. */
  predicate EmptyText(f: Field<string>) { f.Absent? || f.value == "" || f.value == "0" }

  /** The JSON envelope every endpoint answers with. Endpoints whose success
      envelope has no message carry "" here. */
  datatype Response<T> = Success(message: string, data: T) | Failure(message: string)

  const InvalidMethod := "Invalid request method"
  const IncompleteData := "Incomplete data"

  datatype User = User(id: int, name: string, email: string, passwordHash: string)

  datatype TravelPlan = TravelPlan(
    id: int, title: string, location: string, description: string,
    imageUrl: string, price: int, duration: int)

  datatype Reservation = Reservation(
    id: int, userId: int, travelPlanId: int, travelDate: string,
    numPeople: int, totalPrice: int, status: string)

  datatype ItineraryRow = ItineraryRow(
    reservationId: int, dayNumber: int, morning: string, afternoon: string, evening: string)

  datatype Tables = Tables(
    users: seq<User>,
    plans: seq<TravelPlan>,
    reservations: seq<Reservation>,
    itineraries: seq<ItineraryRow>,
    nextUserId: nat,
    nextReservationId: nat)

  /** The `status` a new reservation row receives. No insert sets it; this is
      the column default the front end expects, an assumption of this model. */
  const Confirmed := "confirmed"
  const Cancelled := "cancelled"

  /** `password_hash`, `password_verify` and `htmlspecialchars(strip_tags(..))`.
      The salt `password_hash` draws is passed in by the caller. */
  datatype Builtins = Builtins(
    passwordHash: (string, nat) -> string,
    passwordVerify: (string, string) -> bool,
    sanitize: string -> string)

  /** The one property the endpoints rely on: a password verifies against its own hash. */
  ghost predicate Sound(b: Builtins)
  {
    forall p: string, salt: nat :: b.passwordVerify(p, b.passwordHash(p, salt))
  }

  ghost predicate UniqueEmails(users: seq<User>)
  {
    forall i, j :: 0 <= i < j < |users| ==> users[i].email != users[j].email
  }

  /** What every endpoint keeps true of the tables: auto-increment ids start
      at 1, ids lie below the counters and are distinct, emails are distinct,
      and itinerary rows point below the reservation counter (so a fresh
      reservation id has no rows yet). */
  ghost predicate Valid(t: Tables)
  {
    t.nextUserId >= 1 && t.nextReservationId >= 1 &&
    (forall i :: 0 <= i < |t.users| ==> 0 < t.users[i].id < t.nextUserId) &&
    (forall i, j :: 0 <= i < j < |t.users| ==> t.users[i].id != t.users[j].id) &&
    UniqueEmails(t.users) &&
    (forall i, j :: 0 <= i < j < |t.plans| ==> t.plans[i].id != t.plans[j].id) &&
    (forall i :: 0 <= i < |t.reservations| ==> 0 < t.reservations[i].id < t.nextReservationId) &&
    (forall i, j :: 0 <= i < j < |t.reservations| ==>
       t.reservations[i].id != t.reservations[j].id) &&
    (forall i :: 0 <= i < |t.itineraries| ==> t.itineraries[i].reservationId < t.nextReservationId)
  }

  /** `SELECT ... FROM travel_plans WHERE id = ?` (the id is the primary key). */
  function PlanById(plans: seq<TravelPlan>, id: int): (r: Option<TravelPlan>)
    ensures r.Some? ==> r.value in plans && r.value.id == id
    ensures r.None? ==> forall p :: p in plans ==> p.id != id
  {
    if plans == [] then None
    else if plans[0].id == id then Some(plans[0])
    else PlanById(plans[1..], id)
  }

  /** `SELECT ... FROM itineraries WHERE reservation_id = ?`, in table order. */
  function ItineraryRowsOf(rows: seq<ItineraryRow>, reservationId: int): (r: seq<ItineraryRow>)
    ensures forall x :: x in r <==> x in rows && x.reservationId == reservationId
  {
    if rows == [] then []
    else (if rows[0].reservationId == reservationId then [rows[0]] else [])
         + ItineraryRowsOf(rows[1..], reservationId)
  }

  /** The select keeps every matching row as often as the table holds it
      and no other row. */
  lemma {:induction false} ItineraryRowsOfCounts(rows: seq<ItineraryRow>, id: int, x: ItineraryRow)
    ensures multiset(ItineraryRowsOf(rows, id))[x] == if x.reservationId == id then multiset(rows)[x] else 0
  {
    if rows != [] {
      ItineraryRowsOfCounts(rows[1..], id, x);
      assert rows == [rows[0]] + rows[1..];
      assert multiset(rows) == multiset{rows[0]} + multiset(rows[1..]);
    }
  }

  lemma {:induction false} ItineraryRowsOfAppend(a: seq<ItineraryRow>, b: seq<ItineraryRow>, id: int)
    ensures ItineraryRowsOf(a + b, id) == ItineraryRowsOf(a, id) + ItineraryRowsOf(b, id)
  {
    if a != [] {
      assert (a + b)[1..] == a[1..] + b;
      ItineraryRowsOfAppend(a[1..], b, id);
    } else {
      assert a + b == b;
    }
  }

  lemma {:induction false} ItineraryRowsOfNone(rows: seq<ItineraryRow>, id: int)
    requires forall i :: 0 <= i < |rows| ==> rows[i].reservationId < id
    ensures ItineraryRowsOf(rows, id) == []
  {
    if rows != [] {
      ItineraryRowsOfNone(rows[1..], id);
    }
  }

  lemma {:induction false} ItineraryRowsOfAll(rows: seq<ItineraryRow>, id: int)
    requires forall i :: 0 <= i < |rows| ==> rows[i].reservationId == id
    ensures ItineraryRowsOf(rows, id) == rows
  {
    if rows != [] {
      ItineraryRowsOfAll(rows[1..], id);
      assert rows == [rows[0]] + rows[1..];
    }
  }
}

=== FILE: sorting.dfy ===
/** A stable insertion sort over a caller-supplied total preorder. It stands for
    SQL `ORDER BY` (ties keep table order, which the database does not promise)
    and for JavaScript's `Array.prototype.sort`. */
module Sorting {

  ghost predicate TotalPreorder<T(!new)>(le: (T, T) -> bool)
  {
    (forall a, b :: le(a, b) || le(b, a)) &&
    (forall a, b, c :: le(a, b) && le(b, c) ==> le(a, c))
  }

  ghost predicate SortedBy<T>(s: seq<T>, le: (T, T) -> bool)
  {
    forall i, j :: 0 <= i < j < |s| ==> le(s[i], s[j])
  }

  /** Places `x` before the first element it is `le` to. */
  function Insert<T(!new)>(x: T, s: seq<T>, le: (T, T) -> bool): (r: seq<T>)
    ensures multiset(r) == multiset(s) + multiset{x}
    decreases |s|
  {
    if s == [] || le(x, s[0]) then [x] + s
    else
      assert s == [s[0]] + s[1..];
      [s[0]] + Insert(x, s[1..], le)
  }

  function SortBy<T(!new)>(s: seq<T>, le: (T, T) -> bool): (r: seq<T>)
    ensures multiset(r) == multiset(s)
    decreases |s|
  {
    if s == [] then []
    else
      assert s == [s[0]] + s[1..];
      Insert(s[0], SortBy(s[1..], le), le)
  }

  lemma {:induction false} InsertSorted<T(!new)>(x: T, s: seq<T>, le: (T, T) -> bool)
    requires TotalPreorder(le) && SortedBy(s, le)
    ensures SortedBy(Insert(x, s, le), le)
    decreases |s|
  {
    if s == [] || le(x, s[0]) {
      var r := [x] + s;
      forall i, j | 0 <= i < j < |r| ensures le(r[i], r[j]) {
        if i == 0 && j > 1 {
          assert le(s[0], s[j - 1]);
        }
      }
    } else {
      var tail := s[1..];
      InsertSorted(x, tail, le);
      var ins := Insert(x, tail, le);
      assert le(s[0], x);
      forall k | 0 <= k < |ins| ensures le(s[0], ins[k]) {
        assert ins[k] in multiset(ins);
        if ins[k] != x {
          assert ins[k] in multiset(tail);
          var j :| 0 <= j < |tail| && tail[j] == ins[k];
          assert s[j + 1] == ins[k];
        }
      }
      var r := [s[0]] + ins;
      forall i, j | 0 <= i < j < |r| ensures le(r[i], r[j]) {
        if i > 0 {
          assert r[i] == ins[i - 1] && r[j] == ins[j - 1];
        }
      }
    }
  }

  /** The output of `SortBy` is ordered. */
  lemma {:induction false} SortBySorted<T(!new)>(s: seq<T>, le: (T, T) -> bool)
    requires TotalPreorder(le)
    ensures SortedBy(SortBy(s, le), le)
    decreases |s|
  {
    if s != [] {
      SortBySorted(s[1..], le);
      InsertSorted(s[0], SortBy(s[1..], le), le);
    }
  }

  /** Sorting an already ordered sequence leaves it as it is. */
  lemma {:induction false} SortByOfSorted<T(!new)>(s: seq<T>, le: (T, T) -> bool)
    requires SortedBy(s, le)
    ensures SortBy(s, le) == s
    decreases |s|
  {
    if s != [] {
      assert SortedBy(s[1..], le);
      SortByOfSorted(s[1..], le);
      if |s| > 1 {
        assert le(s[0], s[1]);
      }
      assert s == [s[0]] + s[1..];
    }
  }

  /** `x` and `y` have equal sort keys: each is `le` to the other. */
  predicate Tied<T>(le: (T, T) -> bool, x: T, y: T)
  {
    le(x, y) && le(y, x)
  }

  /** The elements of `s` whose key equals that of `x`, in their order in `s`. */
  function TiesOf<T>(s: seq<T>, x: T, le: (T, T) -> bool): seq<T>
    decreases |s|
  {
    if s == [] then []
    else (if Tied(le, x, s[0]) then [s[0]] else []) + TiesOf(s[1..], x, le)
  }

  lemma TiesOfCons<T>(y: T, s: seq<T>, x: T, le: (T, T) -> bool)
    ensures TiesOf([y] + s, x, le) == (if Tied(le, x, y) then [y] else []) + TiesOf(s, x, le)
  {
    assert ([y] + s)[1..] == s;
  }

  /** Inserting `y` moves it only past elements with a strictly smaller key,
      so among the elements tied with any `x` it stays in front. */
  lemma {:induction false} InsertStable<T(!new)>(y: T, s: seq<T>, x: T, le: (T, T) -> bool)
    requires TotalPreorder(le)
    ensures TiesOf(Insert(y, s, le), x, le) == TiesOf([y] + s, x, le)
    decreases |s|
  {
    if s != [] && !le(y, s[0]) {
      var tail := s[1..];
      assert s == [s[0]] + tail;
      InsertStable(y, tail, x, le);
      TiesOfCons(s[0], Insert(y, tail, le), x, le);
      TiesOfCons(y, tail, x, le);
      TiesOfCons(y, s, x, le);
      TiesOfCons(s[0], tail, x, le);
    }
  }

  /** `SortBy` is stable: for every key, the elements with that key appear
      in the output in the order they had in the input. */
  lemma {:induction false} SortByStable<T(!new)>(s: seq<T>, x: T, le: (T, T) -> bool)
    requires TotalPreorder(le)
    ensures TiesOf(SortBy(s, le), x, le) == TiesOf(s, x, le)
    decreases |s|
  {
    if s != [] {
      SortByStable(s[1..], x, le);
      InsertStable(s[0], SortBy(s[1..], le), x, le);
      TiesOfCons(s[0], SortBy(s[1..], le), x, le);
      TiesOfCons(s[0], s[1..], x, le);
      assert s == [s[0]] + s[1..];
    }
  }

  predicate Distinct<T(==)>(s: seq<T>)
  {
    forall i, j :: 0 <= i < j < |s| ==> s[i] != s[j]
  }

  /** A sequence without repeats holds each value at most once. */
  lemma {:induction false} DistinctMultiplicity<T>(s: seq<T>, x: T)
    requires Distinct(s)
    ensures multiset(s)[x] <= 1
    decreases |s|
  {
    if s != [] {
      assert s == [s[0]] + s[1..];
      assert Distinct(s[1..]);
      DistinctMultiplicity(s[1..], x);
      if x == s[0] {
        assert x !in s[1..];
      }
    }
  }

  /** A permutation of a sequence without repeats has none either; in
      particular sorting keeps a sequence free of repeats. */
  lemma PermutationDistinct<T>(a: seq<T>, b: seq<T>)
    requires Distinct(b) && multiset(a) == multiset(b)
    ensures Distinct(a)
  {
    forall i, j | 0 <= i < j < |a| ensures a[i] != a[j] {
      if a[i] == a[j] {
        assert a == a[..j] + a[j..];
        assert a[i] in a[..j];
        assert a[j] in a[j..];
        assert multiset(a)[a[i]] == multiset(a[..j])[a[i]] + multiset(a[j..])[a[i]];
        DistinctMultiplicity(b, a[i]);
        assert false;
      }
    }
  }
}

=== FILE: store.dfy ===
/** The database behind the PHP endpoints as one object whose tables the
    endpoints read and update, one method per endpoint. Each method follows
    its endpoint's statement sequence and is proved to agree with the
    endpoint's specification function. */
module ReservationStore {
  import opened Schema
  import Booking
  import ReservationQueries
  import Cancellation
  import Accounts
  import Catalog

  class Store {
    var users: seq<User>
    var plans: seq<TravelPlan>
    var reservations: seq<Reservation>
    var itineraries: seq<ItineraryRow>
    var nextUserId: nat
    var nextReservationId: nat

    function Tables(): Tables
      reads this
    {
      Schema.Tables(users, plans, reservations, itineraries, nextUserId, nextReservationId)
    }

    ghost predicate Valid()
      reads this
    {
      Schema.Valid(Tables())
    }

    /** An empty store over a fixed set of travel plans. */
    constructor (travelPlans: seq<TravelPlan>)
      requires forall i, j :: 0 <= i < j < |travelPlans| ==> travelPlans[i].id != travelPlans[j].id
      ensures Valid()
      ensures Tables() == Schema.Tables([], travelPlans, [], [], 1, 1)
    {
      users, plans, reservations, itineraries := [], travelPlans, [], [];
      nextUserId, nextReservationId := 1, 1;
    }

    /** book.php: a transaction inserting the reservation, then one row per
        day; an exception (`fault`) rolls all of it back. */
    method Book(m: HttpMethod, req: Booking.BookRequest, fault: Booking.Fault, draw: int)
      returns (resp: Response<Booking.BookingData>)
      requires Valid()
      modifies this
      ensures Valid()
      ensures (Tables(), resp) == Booking.Book(old(Tables()), m, req, fault, draw)
    {
      if m != Post {
        return Failure(InvalidMethod);
      }
      if !Booking.Complete(req) {
        return Failure(IncompleteData);
      }
      // beginTransaction: what a rollback restores
      var savedReservations, savedItineraries, savedNext := reservations, itineraries, nextReservationId;
      if fault.FailsAt? && fault.statement == 0 {
        return Failure("Error: " + fault.error);
      }
      var id := nextReservationId;
      var row := Booking.NewReservation(Tables(), req);
      reservations := reservations + [row];
      nextReservationId := id + 1;
      var days := Booking.DaysOf(req.itinerary);
      var i := 0;
      while i < |days|
        invariant 0 <= i <= |days|
        invariant users == old(users) && plans == old(plans) && nextUserId == old(nextUserId)
        invariant reservations == savedReservations + [row] && nextReservationId == id + 1
        invariant itineraries == savedItineraries + Booking.DayRows(id, days[..i])
        invariant !(fault.FailsAt? && fault.statement <= i)
      {
        if fault.FailsAt? && fault.statement == i + 1 {
          // rollBack
          reservations, itineraries, nextReservationId := savedReservations, savedItineraries, savedNext;
          return Failure("Error: " + fault.error);
        }
        assert Booking.DayRows(id, days[..i + 1]) == Booking.DayRows(id, days[..i]) + [Booking.DayRow(id, i, days[i])];
        itineraries := itineraries + [Booking.DayRow(id, i, days[i])];
        i := i + 1;
      }
      assert days[..i] == days;
      Booking.BookingKeepsValid(old(Tables()), req, days);
      // commit
      resp := Success(Booking.BookedMessage, Booking.BookingData(id, Booking.BookingReference(draw)));
    }

    /** reservations.php: the outer query's rows, each with the triples of
        its itinerary rows. */
    method ListReservations(m: HttpMethod, req: ReservationQueries.ListRequest)
      returns (resp: Response<seq<ReservationQueries.ReservationView>>)
      ensures resp == ReservationQueries.Listing(Tables(), m, req)
    {
      if m != Get {
        return Failure(InvalidMethod);
      }
      if EmptyInt(req.userId) {
        return Failure(ReservationQueries.UserIdRequired);
      }
      var t := Tables();
      var rows := ReservationQueries.UserRows(t, req.userId.value);
      var views := Views(t, rows);
      ReservationQueries.ListingByRows(t, req, views);
      resp := Success("", views);
    }

    /** cancel-reservation.php: the ownership check, then the status update. */
    method Cancel(m: HttpMethod, req: Cancellation.CancelRequest) returns (resp: Response<()>)
      requires Valid()
      modifies this
      ensures Valid()
      ensures (Tables(), resp) == Cancellation.Cancel(old(Tables()), m, req)
    {
      if m != Post {
        return Failure(InvalidMethod);
      }
      if EmptyInt(req.reservationId) || EmptyInt(req.userId) {
        return Failure(IncompleteData);
      }
      if !Cancellation.Owns(reservations, req.reservationId.value, req.userId.value) {
        return Failure(Cancellation.NotOwned);
      }
      reservations := Cancellation.WithStatus(reservations, req.reservationId.value, Cancelled);
      resp := Success(Cancellation.CancelledMessage, ());
    }

    /** register.php: the email check, then the insert of the new user. */
    method Register(m: HttpMethod, req: Accounts.RegisterRequest, b: Builtins, salt: nat)
      returns (resp: Response<Accounts.UserInfo>)
      requires Valid()
      modifies this
      ensures Valid()
      ensures (Tables(), resp) == Accounts.Register(old(Tables()), m, req, b, salt)
    {
      if m != Post {
        return Failure(InvalidMethod);
      }
      if EmptyText(req.name) || EmptyText(req.email) || EmptyText(req.password) {
        return Failure(IncompleteData);
      }
      var name := b.sanitize(req.name.value);
      var email := b.sanitize(req.email.value);
      if Accounts.EmailTaken(users, email) {
        return Failure(Accounts.EmailExists);
      }
      var hash := b.passwordHash(req.password.value, salt);
      var id := nextUserId;
      users := users + [User(id, name, email, hash)];
      nextUserId := id + 1;
      resp := Success(Accounts.Registered, Accounts.UserInfo(id, name, email));
    }

    /** update-profile.php: the uniqueness check, then one of the two updates. */
    method UpdateProfile(m: HttpMethod, req: Accounts.UpdateRequest, b: Builtins, salt: nat)
      returns (resp: Response<Accounts.UserInfo>)
      requires Valid()
      modifies this
      ensures Valid()
      ensures (Tables(), resp) == Accounts.UpdateProfile(old(Tables()), m, req, b, salt)
    {
      if m != Post {
        return Failure(InvalidMethod);
      }
      if EmptyInt(req.userId) || EmptyText(req.name) || EmptyText(req.email) {
        return Failure(IncompleteData);
      }
      var uid := req.userId.value;
      var name := b.sanitize(req.name.value);
      var email := b.sanitize(req.email.value);
      if Accounts.TakenByOther(users, email, uid) {
        return Failure(Accounts.EmailTakenByOther);
      }
      ghost var before := Tables();
      if !EmptyText(req.password) {
        var hash := b.passwordHash(req.password.value, salt);
        assert Accounts.NewHash(req, b, salt) == Wrappers.Some(hash);
        users := Accounts.UpdateRows(users, uid, name, email, Wrappers.Some(hash));
      } else {
        assert Accounts.NewHash(req, b, salt) == Wrappers.None;
        users := Accounts.UpdateRows(users, uid, name, email, Wrappers.None);
      }
      Accounts.UpdateKeepsValid(before, uid, name, email, Accounts.NewHash(req, b, salt));
      resp := Success(Accounts.ProfileUpdated, Accounts.UserInfo(uid, name, email));
    }

    /** destinations.php: one projected entry per travel plan, in table order. */
    method ListDestinations(m: HttpMethod) returns (resp: Response<seq<Catalog.Destination>>)
      ensures m != Get ==> resp == Failure(InvalidMethod)
      ensures m == Get ==> resp.Success? && |resp.data| == |plans| &&
                           forall i :: 0 <= i < |plans| ==> resp.data[i] == Catalog.Project(plans[i])
    {
      if m != Get {
        return Failure(InvalidMethod);
      }
      var destinations: seq<Catalog.Destination> := [];
      var i := 0;
      while i < |plans|
        invariant 0 <= i <= |plans|
        invariant |destinations| == i
        invariant forall k :: 0 <= k < i ==> destinations[k] == Catalog.Project(plans[k])
      {
        destinations := destinations + [Catalog.Project(plans[i])];
        i := i + 1;
      }
      resp := Success("", destinations);
    }
  }

  /** The loop of reservations.php over the outer query's rows, reading one
      snapshot of the tables. */
  method Views(t: Tables, rows: seq<ReservationQueries.Joined>)
    returns (views: seq<ReservationQueries.ReservationView>)
    ensures |views| == |rows|
    ensures forall k :: 0 <= k < |rows| ==> views[k] == ReservationQueries.ViewOf(t, rows[k])
  {
    ghost var expected := seq(|rows|, k requires 0 <= k < |rows| => ReservationQueries.ViewOf(t, rows[k]));
    views := [];
    var i := 0;
    while i < |rows|
      invariant 0 <= i <= |rows|
      invariant views == expected[..i]
    {
      var view := ViewFor(t, rows[i]);
      PrefixGrows(expected, i);
      views := views + [view];
      i := i + 1;
    }
    PrefixWhole(expected);
  }

  /** One more element of a prefix. */
  lemma PrefixGrows<T>(xs: seq<T>, i: nat)
    requires i < |xs|
    ensures xs[..i + 1] == xs[..i] + [xs[i]]
  {
  }

  lemma PrefixWhole<T>(xs: seq<T>)
    ensures xs[..|xs|] == xs
  {
  }

  /** One outer row with the triples of its reservation's itinerary rows. */
  method ViewFor(t: Tables, row: ReservationQueries.Joined) returns (view: ReservationQueries.ReservationView)
    ensures view == ReservationQueries.ViewOf(t, row)
  {
    var itinerary := Itinerary(t, row.res.id);
    view := ReservationQueries.View(row, itinerary);
  }

  /** The inner query of reservations.php and the loop that turns each of
      its rows into a `[morning, afternoon, evening]` triple. */
  method Itinerary(t: Tables, reservationId: int) returns (itinerary: seq<seq<string>>)
    ensures itinerary == ReservationQueries.ItineraryOf(t, reservationId)
  {
    var dayRows := ReservationQueries.DayRowsOf(t, reservationId);
    itinerary := [];
    var d := 0;
    while d < |dayRows|
      invariant 0 <= d <= |dayRows|
      invariant |itinerary| == d
      invariant forall k :: 0 <= k < d ==> itinerary[k] == ReservationQueries.Triple(dayRows[k])
    {
      itinerary := itinerary + [[dayRows[d].morning, dayRows[d].afternoon, dayRows[d].evening]];
      d := d + 1;
    }
  }
}

=== FILE: text.dfy ===
/** Text operations the model needs: PHP's conversion of an integer to its
    decimal string, JavaScript's `toLowerCase` (ASCII letters) and
    `String.prototype.includes`, and the character-by-character lexicographic
    order in which SQL compares `YYYY-MM-DD` dates and JavaScript's default
    `sort` compares strings. */
module Text {

  predicate IsDigit(c: char) { '0' <= c <= '9' }

  predicate AllDigits(s: string) { forall i :: 0 <= i < |s| ==> IsDigit(s[i]) }

  function DigitChar(d: nat): (c: char)
    requires d < 10
    ensures IsDigit(c) && c as int - '0' as int == d
  {
    ('0' as int + d) as char
  }

  /** The decimal digits of `n`, most significant first, no leading zeros. */
  function Decimal(n: nat): (s: string)
    ensures |s| >= 1 && AllDigits(s)
    decreases n
  {
    if n < 10 then [DigitChar(n)] else Decimal(n / 10) + [DigitChar(n % 10)]
  }

  /** PHP's string conversion of an integer (`"TP-" . $n`). */
  function IntDecimal(i: int): string
  {
    if i < 0 then "-" + Decimal(-i) else Decimal(i)
  }

  /** The number a string of decimal digits denotes. */
  function DigitsValue(s: string): nat
    requires AllDigits(s)
  {
    if s == [] then 0 else DigitsValue(s[..|s| - 1]) * 10 + (s[|s| - 1] as int - '0' as int)
  }

  /** Reading back the digits of `n` gives `n`. */
  lemma {:induction false} DecimalRoundTrip(n: nat)
    ensures DigitsValue(Decimal(n)) == n
  {
    if n >= 10 {
      DecimalRoundTrip(n / 10);
      var s := Decimal(n);
      assert s[..|s| - 1] == Decimal(n / 10);
    }
  }

  function Pow10(k: nat): (p: nat)
    ensures p >= 1
  {
    if k == 0 then 1 else 10 * Pow10(k - 1)
  }

  /** A number with `k` digits is written with exactly `k` characters. */
  lemma {:induction false} DecimalLength(n: nat, k: nat)
    requires k >= 1 && Pow10(k - 1) <= n < Pow10(k)
    ensures |Decimal(n)| == k
  {
    if n >= 10 {
      assert k >= 2;
      assert Pow10(k - 1) == 10 * Pow10(k - 2);
      assert Pow10(k - 2) <= n / 10 < Pow10(k - 1);
      DecimalLength(n / 10, k - 1);
    }
  }

  /** ASCII upper-case letters map to lower case; every other character is kept. */
  function LowerChar(c: char): char
  {
    if 'A' <= c <= 'Z' then (c as int + 32) as char else c
  }

  function Lower(s: string): (r: string)
    ensures |r| == |s|
    ensures forall i :: 0 <= i < |s| ==> r[i] == LowerChar(s[i])
  {
    if s == [] then [] else [LowerChar(s[0])] + Lower(s[1..])
  }

  /** Lower-casing twice is lower-casing once. */
  lemma LowerIdempotent(s: string)
    ensures Lower(Lower(s)) == Lower(s)
  {
    assert forall i :: 0 <= i < |s| ==> LowerChar(LowerChar(s[i])) == LowerChar(s[i]);
  }

  /** `needle` occurs in `hay` starting at position `i`. */
  predicate OccursAt(hay: string, needle: string, i: int)
  {
    0 <= i && i + |needle| <= |hay| && hay[i..i + |needle|] == needle
  }

  /** `hay.includes(needle)`: a prefix of some suffix of `hay` is `needle`. */
  predicate Contains(hay: string, needle: string)
    decreases |hay|
  {
    needle <= hay || (hay != [] && Contains(hay[1..], needle))
  }

  /** `Contains` agrees with the positional definition of a substring. */
  lemma {:induction false} ContainsIffOccurs(hay: string, needle: string)
    ensures Contains(hay, needle) <==> exists i :: OccursAt(hay, needle, i)
    decreases |hay|
  {
    if needle <= hay {
      assert OccursAt(hay, needle, 0);
    } else if hay != [] {
      ContainsIffOccurs(hay[1..], needle);
      if Contains(hay[1..], needle) {
        var i :| OccursAt(hay[1..], needle, i);
        assert hay[1..][i..i + |needle|] == hay[i + 1..i + 1 + |needle|];
        assert OccursAt(hay, needle, i + 1);
      }
      if exists i :: OccursAt(hay, needle, i) {
        var i :| OccursAt(hay, needle, i);
        if i > 0 {
          assert hay[1..][i - 1..i - 1 + |needle|] == hay[i..i + |needle|];
          assert OccursAt(hay[1..], needle, i - 1);
        }
      }
    }
  }

  /** The empty string occurs in every string. */
  lemma ContainsEmpty(hay: string)
    ensures Contains(hay, "")
  {
  }

  /** Lexicographic order on characters (shorter prefix first). */
  predicate LexLeq(a: string, b: string)
    decreases |a|
  {
    a == [] || (b != [] && (a[0] < b[0] || (a[0] == b[0] && LexLeq(a[1..], b[1..]))))
  }

  lemma {:induction false} LexLeqTotal(a: string, b: string)
    ensures LexLeq(a, b) || LexLeq(b, a)
    decreases |a|
  {
    if a != [] && b != [] && a[0] == b[0] {
      LexLeqTotal(a[1..], b[1..]);
    }
  }

  lemma {:induction false} LexLeqTransitive(a: string, b: string, c: string)
    requires LexLeq(a, b) && LexLeq(b, c)
    ensures LexLeq(a, c)
    decreases |a|
  {
    if a != [] && a[0] == b[0] && b[0] == c[0] {
      LexLeqTransitive(a[1..], b[1..], c[1..]);
    }
  }

  lemma {:induction false} LexLeqAntisymmetric(a: string, b: string)
    requires LexLeq(a, b) && LexLeq(b, a)
    ensures a == b
    decreases |a|
  {
    if a != [] {
      LexLeqAntisymmetric(a[1..], b[1..]);
      assert a == [a[0]] + a[1..] && b == [b[0]] + b[1..];
    }
  }
}

=== FILE: wrappers.dfy ===
/** The conventional optional value, used for lookups that may find nothing. */
module Wrappers {
  datatype Option<+T> = None | Some(value: T)
}
